=== FILE: README.md ===
# PDF question answering with retrieval-augmented generation

The system is a small web service. A user uploads a PDF. The service
extracts the text, splits it into overlapping chunks, embeds them and keeps
them in a FAISS vector index. Questions are then answered by a local
language model (Ollama). The model is given the most similar chunks inside a
fixed "answer only from the document" prompt.

Two linear LangGraph graphs do the work:

- **upload**: ingestion → chunking → indexing → response;
- **query**: retrieval → prompt construction → LLM call → response.

Both graphs work over one `GraphState` record. Every field of the record is
optional, and it has an `error` slot. Two HTTP handlers drive the graphs and
remember which document was uploaded last.

This project models the logic of three source files (`backend/graph.py`,
`backend/main.py` and `backend/llm_client.py`) in the modules below, and
proves what that logic promises:

- **`Graph`** (`graph.dfy`) has the seven nodes as pure state transformers.
  The upload and query graphs are their composition, in `add_edge` order.
  The process-wide `vector_store` travels next to the state in a `World`.
  What the libraries do is taken as given. The page loader, splitter, FAISS
  build, save, load and search, and the HTTP reply of the model runtime are
  fields of a `Libraries` value (`state.dfy`).
- **`Prompt`** (`prompt.dfy`) is the prompt the prompt-construction node
  builds. It holds the template text exactly as in the source, the chunk
  numbering and the layout lemmas.
- **`LlmClient`** (`llm_client.dfy`) decodes the Ollama and HuggingFace
  replies over a JSON datatype. It also states the rule that every Ollama
  failure is re-raised as one fixed message.
- **`Server`** (`server.dfy`) covers `upload_pdf` and `ask_question` as a state
  machine over `current_pdf_path` and the vector store. Over whole sequences
  of requests, `Serve` states what is remembered and when questions can be
  answered. Each request carries its own `Libraries` value, so library
  behaviour may change from one request to the next.
- **`Text`** (`text.dfy`) is the string toolkit the others use: Python's
  `str.strip`, `str.join`, `endswith` and decimal formatting, with their
  laws proved.
- **`Config`** (`config.dfy`) holds the constants. **`Wrappers`**
  (`wrappers.dfy`) holds `Option` and `Result`.

A Python value that "is truthy" is modelled by `State.Present`: set and
non-empty. A library call that raises is a `Failure(message)` or
`Some(message)` result of the corresponding `Libraries` field.

One ordering in the indexing node matters for failed uploads.
`embedding_indexing_node` assigns the new index to the global `vector_store`
before it calls `save_local` (backend/graph.py:167-173). A failing save
therefore reports an error but still leaves the new index in place, while
`current_pdf_path` keeps naming the previous document.
`Graph.SaveFailureKeepsNewStore` states this, and
`Graph.EarlyUploadFailureKeepsStore` shows that this is the only failure
that replaces the index.

## Model

| member | source | states |
|---|---|---|
| Graph.PdfIngestion | backend/graph.py:63-88 | Only the error and the extracted text change. A missing or empty path gives "No PDF path provided". A raising loader gives "PDF ingestion failed: " and the cause. No pages gives "PDF appears to be empty or unreadable". Text whose stripped length is under 50 gives "PDF contains too little text to process". Otherwise the pages joined by "\n\n" are stored. An existing error is never cleared. |
| Graph.IngestedTextKeepsPages | backend/graph.py:76-77 | In the stored text, every page appears verbatim at its offset in page order, followed by "\n\n" unless it is the last page. |
| Graph.TextProcessing | backend/graph.py:110-134 | With an error or no extracted text, the state is unchanged. A raising splitter, called with sizes 1000/200, gives "Text processing failed: " and the cause. An empty split gives "Text splitting produced no chunks". Otherwise `text_chunks` is exactly the splitter's output. Only the error and the chunks change. |
| Graph.EmbeddingIndexing | backend/graph.py:160-179 | With an error or no chunks, the state and store are unchanged. A failing build records "Embedding/indexing failed: " and keeps the old store. Otherwise the global store becomes the index of exactly those chunks, even when the following save fails and records the same prefix. |
| Graph.Query | backend/graph.py:202-231 | It searches the in-memory index, or else the one loaded from disk, with k = 12. A failure to load or search gives "Query failed: " and the cause. No hits gives "No relevant context found in the document". Otherwise the contexts are exactly the hits in search order. A loaded index becomes the global one. Only the error and the contexts change. |
| Graph.PromptConstruction | backend/graph.py:253-284 | The node is skipped when there is an error, no contexts or no question. Otherwise it always stores the grounded prompt built from the contexts and question, replacing any earlier prompt, and that prompt is non-empty. It changes nothing else. |
| Graph.LlmExecution | backend/graph.py:313-327 | With an error or no prompt, the state is unchanged. It sets the answer and the source "ollama" only when the runtime reply decodes. Otherwise it records "LLM execution failed: " with the fixed Ollama message and leaves the answer unset. |
| Graph.StepSticky | backend/graph.py:111-112 | Every node other than ingestion returns world and state unchanged once an error is set. This covers the checks at lines 161-162, 203-204, 253-254 and 314-315, and the response node at 348-353. |
| Graph.StepKeepsError | backend/graph.py:51-353 | No node, the entry node included, clears an error. |
| Graph.RunSticky | backend/graph.py:379-382 | Once an error is set, a chain of non-entry nodes changes nothing. |
| Graph.RunAppend | backend/graph.py:379-382 | Running an edge chain is running its prefix and then the rest. |
| Graph.FirstFailureIsFinal | backend/graph.py:379-382 | The final world of a chain whose only entry-node step is the first equals the world right after the first failing node. The graph reports the first error. |
| Graph.GraphsHaveSingleEntry | backend/graph.py:399-402 | Both graphs have ingestion at most at their entry, so `FirstFailureIsFinal` applies to both. |
| Graph.UploadGraphComposes | backend/graph.py:359-384 | The upload graph is ingestion, then chunking, then indexing, then response. |
| Graph.QueryGraphComposes | backend/graph.py:387-404 | The query graph is retrieval, then prompt, then LLM, then response. |
| Graph.UploadGraphOutcome | backend/graph.py:51-181 | An upload ends without error if and only if every library step succeeds (`UploadAccepted`). Then the state holds the pages' text and the splitter's chunks, and the global store is the index of exactly those chunks, whatever it was before. |
| Graph.SaveFailureKeepsNewStore | backend/graph.py:167-179 | When only the save fails, the upload reports "Embedding/indexing failed: " and the cause. The new index is still the global store. |
| Graph.EarlyUploadFailureKeepsStore | backend/graph.py:63-179 | When a failed upload changes the global store, the path was non-empty, the pages loaded and were non-empty with enough text, the split succeeded with chunks, the build succeeded and the save failed. Every earlier failure, the node checks included, leaves the store as it was. |
| Graph.QueryGraphOutcome | backend/graph.py:187-329 | A question gets an answer without error if and only if an index is available, the search succeeds with hits, and the runtime's reply to the prompt built from those hits decodes. Then the contexts, prompt, answer and source "ollama" are exactly those. A failed query has no answer. |
| Graph.QueryPipelineOutcome | backend/graph.py:187-329 | The same outcome, stated over the composed node functions. |
| Prompt.ChunkInPrompt | backend/graph.py:257-282 | In the prompt, chunk i (from 0) appears verbatim right after the label "[Chunk i+1]\n". The "\n\n---\n\n" rule follows it unless it is the last chunk, and the next label starts right after the rule. The last chunk ends exactly where the question lead begins. |
| Prompt.ChunksInOrder | backend/graph.py:257-261 | An earlier chunk and the rule after it end before a later chunk's label begins: retrieval order is kept. |
| Prompt.LabelNumbersChunk | backend/graph.py:258-259 | A chunk label is "[Chunk ", a decimal number that parses back to the chunk's number, and "]\n". |
| Prompt.LabelsDistinct | backend/graph.py:258-259 | Different chunk numbers give different labels. |
| Prompt.QuestionInPrompt | backend/graph.py:264-282 | After the template preamble and the context block come "\n\nUser Question: " and the question verbatim. The prompt ends with the answer cue. |
| LlmClient.DecodeOllama | backend/llm_client.py:98-115 | A raised request or a non-200 status is an error carrying the cause, and a 200 body that is not JSON is the not-JSON error. Decoding succeeds if and only if a 200 reply is a JSON object whose "response", if present, is a string. The result is then that field stripped, or "" when the field is absent. |
| LlmClient.OllamaRoundTrip | backend/llm_client.py:114-115 | For any 200 reply whose object holds `text` under "response", whatever its body and other fields, `generate` returns `text` stripped, tagged "ollama". Already-stripped text comes back unchanged. |
| LlmClient.OllamaMissingFieldIsEmpty | backend/llm_client.py:115 | Any 200 reply whose object has no "response" decodes to the empty answer, whatever its body. |
| LlmClient.StatusMessageCarriesStatusAndBody | backend/llm_client.py:111-112 | The error message of a non-200 reply contains the status code, which parses back, and ends with the body. |
| LlmClient.DecodeHuggingFace | backend/llm_client.py:66-96 | A raised request or non-200 status is an error with its cause. A 200 body that is not JSON is the not-JSON error. The result is stripped text. A 200 reply that is an empty list, or neither a list nor an object, raises the unexpected-format error carrying that reply, and no other reply raises it. |
| LlmClient.HuggingFaceShapes | backend/llm_client.py:88-96 | For any body, a non-empty list decodes through its first element's "generated_text", and an object decodes through its own. A list whose first object holds `t` gives `t` stripped. A body that is not JSON is the not-JSON error. An empty list is the unexpected-format error. |
| LlmClient.Generate | backend/llm_client.py:41-64 | `generate` succeeds exactly when the Ollama decoding does, and returns the decoded text with "ollama". Every failure becomes the one message naming the model. |
| LlmClient.FailureHidesCause | backend/llm_client.py:59-64 | Any two failing replies give the same error, so the cause is not propagated. The message contains the configured model name. |
| Server.UploadDecision | backend/main.py:126-150 | A truthy final error gives 500 "Processing failed: " and the error. Otherwise the reply is success with the file name. |
| Server.Upload | backend/main.py:104-159 | A name not ending in ".pdf" is a 400 "Only PDF files are supported", and nothing runs or changes. A failing save is a 500 "Upload failed: " and the cause. The upload succeeds if and only if the graph ends without error. The success reply then holds "PDF uploaded and processed successfully", the file name and "success", and only then does `current_pdf_path` become the saved path. The store is whatever the graph left. |
| Server.FinalErrorAnyShape | backend/main.py:126-139 | Whether the final state comes back as an object or as a dict with or without unset keys, the handler finds the graph's error. |
| Server.FinalSource | backend/main.py:198-213 | The object branch falls back to "unknown" whenever the source is falsy. The dict branch falls back only when the key is absent. |
| Server.AskDecision | backend/main.py:195-234 | A truthy error gives 500 "Query failed: " and the error. No answer or an empty answer gives 500 "No answer generated". A source of `None` fails response validation with a 500 "Query failed: ". Otherwise the reply echoes the question with the answer and source. |
| Server.Ask | backend/main.py:179-234 | With no remembered document the reply is 400 "Please upload a PDF first before asking questions" and nothing changes. Otherwise the reply is the decision on the query graph's result. Asking never changes `current_pdf_path`. |
| Server.AskWithoutDocument | backend/main.py:179-183 | Before a document is remembered the query graph is not invoked. The reply does not depend on the libraries, and the server is unchanged. |
| Server.AskShapeIrrelevant | backend/main.py:195-226 | On any query-graph result, the dict and object branches decide the same reply, because an answer always comes with the source "ollama". |
| Server.SourceDefaulting | backend/main.py:198-213 | On a state with an answer and no source, the two branches differ. The object branch and a dict without the key say "unknown". A dict holding `None` fails. An empty source is kept only by the dict branch. |
| Server.Handle | backend/main.py:85-243 | Only a successful upload changes the remembered path, and then to its own path. No question is answered while nothing is remembered. |
| Server.ServeRemembersLastUpload | backend/main.py:41-142 | After any sequence of requests, each served with its own library behaviour (a re-uploaded file, a runtime that comes and goes, whatever is on disk), `current_pdf_path` is the path of the last successful upload. When there was none, it is its initial value. |
| Server.NoAnswerBeforeUpload | backend/main.py:179-183 | Starting with nothing remembered, in any sequence of requests with per-request library behaviour, every answered question is preceded by a successful upload in the same sequence. |
| Server.ServeFromBoot | backend/main.py:41-243 | From a freshly started server, after any sequence of requests with per-request library behaviour, the remembered path is that of the last successful upload, or nothing if there was none. Every answered question comes after a successful upload. |
| Text.StripPadded | backend/graph.py:79 | `Strip` removes whitespace only at the ends. The result is a slice of the input with only whitespace around it. |
| Text.StripIdempotent | backend/llm_client.py:115 | Stripping twice is stripping once. |
| Text.StripEmptyIffAllSpace | backend/graph.py:79 | The stripped text is empty if and only if the input is all whitespace. |
| Text.JoinLayout | backend/graph.py:77 | In a join, every part appears at its offset, followed by the separator unless it is last. |
| Text.DecimalRoundTrip | backend/graph.py:259 | The decimal rendering of a number parses back to the number. |

## Left out

- PDF parsing, the recursive splitter, embeddings and FAISS build, save, load and search are library code. Their results are the fields of `State.Libraries`. Chunk coverage, embedding determinism and top-k tie-breaking are properties of those libraries, so they are not stated.
- The LangGraph runtime is modelled only through its fixed edge order, as function composition (`Graph.Run`). How it hands back the final state is unknown, so the three possible shapes are a parameter (`Server.Shape`).
- HTTP transport, the 30 s and 180 s timeouts, FastAPI routing, CORS, uvicorn and logging are I/O. The HTTP call is reduced to the reply it produced (`LlmClient.HttpReply`).
- Saving the upload to `UPLOAD_DIR` is I/O. Only its possible failure is modelled (`saveFailure`). The saved path is an input.
- The startup probe of the Ollama runtime (backend/main.py:44-70) and directory creation in backend/config.py are startup I/O.
- HuggingFace temperature and the other float generation settings are not modelled. `generate` never calls HuggingFace, so only the decoder `LlmClient.DecodeHuggingFace` is modelled.
- Concurrent requests on the module-level `vector_store` and `current_pdf_path` are not modelled. The code has no locking, and the model is sequential (`Server.Serve`).
- The "Prompt construction failed" path of the prompt node (backend/graph.py:286-288) is not modelled. The node only formats strings, which does not raise.
- The text of a `QueryResponse` validation error is not derived. It is the parameter `invalidSource` of `Server.AskDecision`.
- Request validation by the `QueryRequest` model is not modelled. A question of at least one character is a precondition of `Server.Ask`, as the model guarantees before the handler runs.
- JSON numbers are integers, because nothing the decoders read is a number.

=== FILE: config.dfy ===
/** The configuration constants of the backend that the modelled logic reads. */
module Config {

  /** Characters per chunk handed to the text splitter. */
  const ChunkSize: nat := 1000

  /** Characters shared by consecutive chunks, handed to the text splitter. */
  const ChunkOverlap: nat := 200

  /** Number of chunks requested from the similarity search. */
  const TopKRetrieval: nat := 12

  /** The local model the Ollama runtime is asked to run. */
  const OllamaModel: string := "qwen2.5:0.5b"
}

=== FILE: graph.dfy ===
/** The nodes of the two pipeline graphs and their linear composition. Each
    node maps a graph state (and, for the indexing and query nodes, the
    process-wide vector store) to a new one; library calls come from a
    `Libraries` value. */
module Graph {
  import opened Wrappers
  import opened Text
  import opened State
  import Config
  import Prompt
  import LlmClient

  const NoPathMessage: string := "No PDF path provided"
  const EmptyPdfMessage: string := "PDF appears to be empty or unreadable"
  const TooLittleTextMessage: string := "PDF contains too little text to process"
  const IngestionFailedPrefix: string := "PDF ingestion failed: "
  const NoChunksMessage: string := "Text splitting produced no chunks"
  const ChunkingFailedPrefix: string := "Text processing failed: "
  const IndexingFailedPrefix: string := "Embedding/indexing failed: "
  const NoContextMessage: string := "No relevant context found in the document"
  const QueryFailedPrefix: string := "Query failed: "
  const LlmFailedPrefix: string := "LLM execution failed: "

  /** What separates two pages in the extracted text. */
  const PageSeparator: string := "\n\n"

  /** Fewest non-whitespace-bounded characters a document must yield. */
  const MinTextLength: nat := 50

  /** The text the ingestion node extracts from the loaded pages. */
  function PagesText(pages: seq<string>): string {
    Join(pages, PageSeparator)
  }

  /** Whether extracted text is long enough to be kept. */
  predicate EnoughText(text: string) {
    |Strip(text)| >= MinTextLength
  }

  // ---------------------------------------------------------------------
  // Node 1: PDF ingestion (the entry node of the upload graph)
  // ---------------------------------------------------------------------

  /** Loads the pages of `pdf_path` and stores their text. Unlike the other
      nodes it does not look at `error` first. */
  function PdfIngestion(libs: Libraries, s: GraphState): (r: GraphState)
    ensures r == s.(error := r.error, extractedText := r.extractedText)
    ensures Failed(s) ==> Failed(r)
    ensures !Present(s.pdfPath) ==> r == s.(error := Some(NoPathMessage))
    ensures Present(s.pdfPath) ==>
              match libs.loadPages(s.pdfPath.value)
              case Failure(e) => r == s.(error := Some(IngestionFailedPrefix + e))
              case Success(pages) =>
                if |pages| == 0 then r == s.(error := Some(EmptyPdfMessage))
                else if !EnoughText(PagesText(pages)) then r == s.(error := Some(TooLittleTextMessage))
                else r == s.(extractedText := Some(PagesText(pages)))
    ensures r.extractedText != s.extractedText ==>
              && r.error == s.error
              && Present(s.pdfPath) && libs.loadPages(s.pdfPath.value).Success?
              && r.extractedText == Some(PagesText(libs.loadPages(s.pdfPath.value).value))
              && EnoughText(r.extractedText.value)
  {
    if !Present(s.pdfPath) then s.(error := Some(NoPathMessage))
    else match libs.loadPages(s.pdfPath.value)
      case Failure(e) => s.(error := Some(IngestionFailedPrefix + e))
      case Success(pages) =>
        if |pages| == 0 then s.(error := Some(EmptyPdfMessage))
        else
          var text := PagesText(pages);
          if |Strip(text)| < MinTextLength then s.(error := Some(TooLittleTextMessage))
          else s.(extractedText := Some(text))
  }

  /** The stored text holds every page verbatim, in page order, with the
      page separator between each two neighbours. */
  lemma IngestedTextKeepsPages(libs: Libraries, s: GraphState, i: nat)
    requires Present(s.pdfPath) && libs.loadPages(s.pdfPath.value).Success?
    requires EnoughText(PagesText(libs.loadPages(s.pdfPath.value).value))
    requires i < |libs.loadPages(s.pdfPath.value).value|
    ensures var pages := libs.loadPages(s.pdfPath.value).value;
            var text := PdfIngestion(libs, s).extractedText.value;
            && OccursAt(pages[i], text, Offset(pages, PageSeparator, i))
            && (i + 1 < |pages| ==>
                  OccursAt(PageSeparator, text, Offset(pages, PageSeparator, i) + |pages[i]|))
  {
    var pages := libs.loadPages(s.pdfPath.value).value;
    assert PdfIngestion(libs, s).extractedText.value == PagesText(pages);
    PagesLayout(pages, i);
  }

  /** `JoinLayout` for the page text. */
  lemma PagesLayout(pages: seq<string>, i: nat)
    requires i < |pages|
    ensures OccursAt(pages[i], PagesText(pages), Offset(pages, PageSeparator, i))
    ensures i + 1 < |pages| ==>
              OccursAt(PageSeparator, PagesText(pages), Offset(pages, PageSeparator, i) + |pages[i]|)
  {
    JoinLayout(pages, PageSeparator, i);
  }

  // ---------------------------------------------------------------------
  // Node 2: text processing (chunking)
  // ---------------------------------------------------------------------

  function TextProcessing(libs: Libraries, s: GraphState): (r: GraphState)
    ensures r == s.(error := r.error, textChunks := r.textChunks)
    ensures Failed(s) || !Present(s.extractedText) ==> r == s
    ensures !Failed(s) && Present(s.extractedText) ==>
              match libs.splitText(s.extractedText.value, Config.ChunkSize, Config.ChunkOverlap)
              case Failure(e) => r == s.(error := Some(ChunkingFailedPrefix + e))
              case Success(chunks) =>
                if |chunks| == 0 then r == s.(error := Some(NoChunksMessage))
                else r == s.(textChunks := Some(chunks))
  {
    if Failed(s) || !Present(s.extractedText) then s
    else match libs.splitText(s.extractedText.value, Config.ChunkSize, Config.ChunkOverlap)
      case Failure(e) => s.(error := Some(ChunkingFailedPrefix + e))
      case Success(chunks) =>
        if |chunks| == 0 then s.(error := Some(NoChunksMessage))
        else s.(textChunks := Some(chunks))
  }

  // ---------------------------------------------------------------------
  // Node 3: embedding and indexing
  // ---------------------------------------------------------------------

  /** Builds a store from the chunks, makes it the global store, then saves
      it. A failing save is reported as an error, but the new store has
      already replaced the old one. */
  function EmbeddingIndexing(libs: Libraries, w: World): (r: World)
    ensures r.state == w.state.(error := r.state.error)
    ensures Failed(w.state) || !PresentList(w.state.textChunks) ==> r == w
    ensures !Failed(w.state) && PresentList(w.state.textChunks) ==>
              var chunks := w.state.textChunks.value;
              match libs.buildFailure(chunks)
              case Some(e) => r == World(w.state.(error := Some(IndexingFailedPrefix + e)), w.store)
              case None =>
                && r.store == Some(VectorIndex(chunks))
                && r.state.error == (match libs.saveFailure(VectorIndex(chunks))
                                     case Some(e) => Some(IndexingFailedPrefix + e)
                                     case None => w.state.error)
  {
    if Failed(w.state) || !PresentList(w.state.textChunks) then w
    else
      var chunks := w.state.textChunks.value;
      match libs.buildFailure(chunks)
      case Some(e) => w.(state := w.state.(error := Some(IndexingFailedPrefix + e)))
      case None =>
        var index := VectorIndex(chunks);
        match libs.saveFailure(index)
        case Some(e) => World(w.state.(error := Some(IndexingFailedPrefix + e)), Some(index))
        case None => World(w.state, Some(index))
  }

  // ---------------------------------------------------------------------
  // Node 4: query (similarity search; the entry node of the query graph)
  // ---------------------------------------------------------------------

  /** The store the query node searches: the global one, or the one loaded
      from disk when there is none in memory. */
  function StoreToSearch(libs: Libraries, store: Option<VectorIndex>): Result<VectorIndex, string> {
    match store
    case Some(index) => Success(index)
    case None => libs.loadIndex
  }

  function Query(libs: Libraries, w: World): (r: World)
    ensures r.state == w.state.(error := r.state.error, retrievedContexts := r.state.retrievedContexts)
    ensures Failed(w.state) || !Present(w.state.question) ==> r == w
    ensures w.store.Some? ==> r.store == w.store
    ensures !Failed(w.state) && Present(w.state.question) ==>
              match StoreToSearch(libs, w.store)
              case Failure(e) => r == w.(state := w.state.(error := Some(QueryFailedPrefix + e)))
              case Success(index) =>
                && r.store == Some(index)
                && match libs.search(index, w.state.question.value, Config.TopKRetrieval)
                   case Failure(e) => r.state == w.state.(error := Some(QueryFailedPrefix + e))
                   case Success(hits) =>
                     if |hits| == 0 then r.state == w.state.(error := Some(NoContextMessage))
                     else r.state == w.state.(retrievedContexts := Some(hits))
  {
    if Failed(w.state) || !Present(w.state.question) then w
    else match StoreToSearch(libs, w.store)
      case Failure(e) => w.(state := w.state.(error := Some(QueryFailedPrefix + e)))
      case Success(index) =>
        var s := match libs.search(index, w.state.question.value, Config.TopKRetrieval)
          case Failure(e) => w.state.(error := Some(QueryFailedPrefix + e))
          case Success(hits) =>
            if |hits| == 0 then w.state.(error := Some(NoContextMessage))
            else w.state.(retrievedContexts := Some(hits));
        World(s, Some(index))
  }

  // ---------------------------------------------------------------------
  // Node 5: prompt construction
  // ---------------------------------------------------------------------

  function PromptConstruction(s: GraphState): (r: GraphState)
    ensures r == s.(constructedPrompt := r.constructedPrompt)
    ensures Failed(s) || !PresentList(s.retrievedContexts) || !Present(s.question) ==> r == s
    ensures !Failed(s) && PresentList(s.retrievedContexts) && Present(s.question) ==>
              && r.constructedPrompt == Some(Prompt.Build(s.retrievedContexts.value, s.question.value))
              && Present(r.constructedPrompt)
  {
    if Failed(s) || !PresentList(s.retrievedContexts) || !Present(s.question) then s
    else
      var p := Prompt.Build(s.retrievedContexts.value, s.question.value);
      PromptNotEmpty(s.retrievedContexts.value, s.question.value);
      s.(constructedPrompt := Some(p))
  }

  /** The prompt always holds at least its fixed template. */
  lemma PromptNotEmpty(contexts: seq<string>, question: string)
    ensures |Prompt.Build(contexts, question)| >= |Prompt.AnswerCue| > 0
  {
    Prompt.QuestionInPrompt(Prompt.Grounded, contexts, question);
  }

  // ---------------------------------------------------------------------
  // Node 6: LLM execution
  // ---------------------------------------------------------------------

  /** The error the LLM node records when the client raises. */
  const LlmFailure: string := LlmFailedPrefix + LlmClient.OllamaFailureMessage(Config.OllamaModel)

  function LlmExecution(libs: Libraries, s: GraphState): (r: GraphState)
    ensures r == s.(answer := r.answer, llmSource := r.llmSource, error := r.error)
    ensures Failed(s) || !Present(s.constructedPrompt) ==> r == s
    ensures !Failed(s) && Present(s.constructedPrompt) ==>
              var reply := libs.ollama(s.constructedPrompt.value);
              match LlmClient.DecodeOllama(reply)
              case Success(text) => r == s.(answer := Some(text), llmSource := Some("ollama"))
              case Failure(_) => r == s.(error := Some(LlmFailure))
  {
    if Failed(s) || !Present(s.constructedPrompt) then s
    else match LlmClient.Generate(Config.OllamaModel, libs.ollama(s.constructedPrompt.value))
      case Success(pair) => s.(answer := Some(pair.0), llmSource := Some(pair.1))
      case Failure(message) => s.(error := Some(LlmFailedPrefix + message))
  }

  // ---------------------------------------------------------------------
  // Node 7: response (only logs)
  // ---------------------------------------------------------------------

  function Response(s: GraphState): GraphState {
    s
  }

  // ---------------------------------------------------------------------
  // Graphs as compositions
  // ---------------------------------------------------------------------

  datatype Node =
    | PdfIngestionNode
    | TextProcessingNode
    | EmbeddingIndexingNode
    | QueryNode
    | PromptConstructionNode
    | LlmExecutionNode
    | ResponseNode

  /** One node applied to the state and the global store. */
  function Step(libs: Libraries, n: Node, w: World): World {
    match n
    case PdfIngestionNode => w.(state := PdfIngestion(libs, w.state))
    case TextProcessingNode => w.(state := TextProcessing(libs, w.state))
    case EmbeddingIndexingNode => EmbeddingIndexing(libs, w)
    case QueryNode => Query(libs, w)
    case PromptConstructionNode => w.(state := PromptConstruction(w.state))
    case LlmExecutionNode => w.(state := LlmExecution(libs, w.state))
    case ResponseNode => w.(state := Response(w.state))
  }

  /** A chain of `add_edge` calls from the entry point to `END`: the nodes
      run one after the other. */
  function Run(libs: Libraries, nodes: seq<Node>, w: World): World
    decreases |nodes|
  {
    if |nodes| == 0 then w else Run(libs, nodes[1..], Step(libs, nodes[0], w))
  }

  /** `create_rag_graph`: ingestion, chunking, indexing, response. */
  const UploadNodes: seq<Node> :=
    [PdfIngestionNode, TextProcessingNode, EmbeddingIndexingNode, ResponseNode]

  /** `create_query_graph`: query, prompt, LLM, response. */
  const QueryNodes: seq<Node> :=
    [QueryNode, PromptConstructionNode, LlmExecutionNode, ResponseNode]

  function UploadGraph(libs: Libraries, w: World): World {
    Run(libs, UploadNodes, w)
  }

  function QueryGraph(libs: Libraries, w: World): World {
    Run(libs, QueryNodes, w)
  }

  /** The upload graph is the composition of its four nodes. */
  lemma UploadGraphComposes(libs: Libraries, w: World)
    ensures UploadGraph(libs, w)
         == var w1 := w.(state := PdfIngestion(libs, w.state));
            var w2 := w1.(state := TextProcessing(libs, w1.state));
            var w3 := EmbeddingIndexing(libs, w2);
            w3.(state := Response(w3.state))
  {
    RunSteps(libs, UploadNodes, w);
  }

  /** The query graph is the composition of its four nodes. */
  lemma QueryGraphComposes(libs: Libraries, w: World)
    ensures QueryGraph(libs, w)
         == var w1 := Query(libs, w);
            var w2 := w1.(state := PromptConstruction(w1.state));
            var w3 := w2.(state := LlmExecution(libs, w2.state));
            w3.(state := Response(w3.state))
  {
    RunSteps(libs, QueryNodes, w);
  }

  /** Unfolds `Run` over a four-node chain. */
  lemma RunSteps(libs: Libraries, nodes: seq<Node>, w: World)
    requires |nodes| == 4
    ensures Run(libs, nodes, w)
         == Step(libs, nodes[3], Step(libs, nodes[2], Step(libs, nodes[1], Step(libs, nodes[0], w))))
  {
    var w1 := Step(libs, nodes[0], w);
    var w2 := Step(libs, nodes[1], w1);
    var w3 := Step(libs, nodes[2], w2);
    RunCons(libs, nodes, w);
    RunCons(libs, nodes[1..], w1);
    assert nodes[1..][0] == nodes[1] && nodes[1..][1..] == nodes[2..];
    RunCons(libs, nodes[2..], w2);
    assert nodes[2..][0] == nodes[2] && nodes[2..][1..] == nodes[3..];
    RunCons(libs, nodes[3..], w3);
    assert nodes[3..][0] == nodes[3] && nodes[3..][1..] == [];
  }

  /** One step of `Run`. */
  lemma RunCons(libs: Libraries, nodes: seq<Node>, w: World)
    requires |nodes| > 0
    ensures Run(libs, nodes, w) == Run(libs, nodes[1..], Step(libs, nodes[0], w))
  {
  }

  // ---------------------------------------------------------------------
  // Errors are sticky
  // ---------------------------------------------------------------------

  /** A node that is not the upload graph's entry node leaves the state and
      the store untouched once an error is recorded. */
  lemma StepSticky(libs: Libraries, n: Node, w: World)
    requires n != PdfIngestionNode
    requires Failed(w.state)
    ensures Step(libs, n, w) == w
  {
  }

  /** No node clears an error, the entry node included. */
  lemma StepKeepsError(libs: Libraries, n: Node, w: World)
    requires Failed(w.state)
    ensures Failed(Step(libs, n, w).state)
  {
  }

  /** Once an error is recorded, a chain of non-entry nodes changes nothing. */
  lemma {:induction false} RunSticky(libs: Libraries, nodes: seq<Node>, w: World)
    requires forall j :: 0 <= j < |nodes| ==> nodes[j] != PdfIngestionNode
    requires Failed(w.state)
    ensures Run(libs, nodes, w) == w
    decreases |nodes|
  {
    if |nodes| > 0 {
      StepSticky(libs, nodes[0], w);
      RunSticky(libs, nodes[1..], w);
    }
  }

  /** Running a chain is running its prefix, then the rest. */
  lemma {:induction false} RunAppend(libs: Libraries, a: seq<Node>, b: seq<Node>, w: World)
    ensures Run(libs, a + b, w) == Run(libs, b, Run(libs, a, w))
    decreases |a|
  {
    if |a| > 0 {
      assert (a + b)[1..] == a[1..] + b;
      assert (a + b)[0] == a[0];
      RunAppend(libs, a[1..], b, Step(libs, a[0], w));
    } else {
      assert a + b == b;
    }
  }

  /** A linear graph whose entry node is its only ingestion node reports the
      first failure: when the first `k + 1` nodes end in an error, the whole
      graph ends in exactly that state, store included. */
  lemma FirstFailureIsFinal(libs: Libraries, nodes: seq<Node>, w: World, k: nat)
    requires k < |nodes|
    requires forall j :: 0 < j < |nodes| ==> nodes[j] != PdfIngestionNode
    requires Failed(Run(libs, nodes[..k + 1], w).state)
    ensures Run(libs, nodes, w) == Run(libs, nodes[..k + 1], w)
  {
    assert nodes == nodes[..k + 1] + nodes[k + 1..];
    RunAppend(libs, nodes[..k + 1], nodes[k + 1..], w);
    RunSticky(libs, nodes[k + 1..], Run(libs, nodes[..k + 1], w));
  }

  /** Both graphs qualify for `FirstFailureIsFinal`. */
  lemma GraphsHaveSingleEntry()
    ensures forall j :: 0 < j < |UploadNodes| ==> UploadNodes[j] != PdfIngestionNode
    ensures forall j :: 0 <= j < |QueryNodes| ==> QueryNodes[j] != PdfIngestionNode
  {
  }

  // ---------------------------------------------------------------------
  // End-to-end behaviour of the two graphs
  // ---------------------------------------------------------------------

  /** Every library step of an upload of `path` succeeds: the reference
      description of an accepted upload. */
  predicate UploadAccepted(libs: Libraries, path: string) {
    && |path| > 0
    && libs.loadPages(path).Success?
    && |libs.loadPages(path).value| > 0
    && EnoughText(PagesText(libs.loadPages(path).value))
    && libs.splitText(PagesText(libs.loadPages(path).value), Config.ChunkSize, Config.ChunkOverlap).Success?
    && |UploadChunks(libs, path)| > 0
    && libs.buildFailure(UploadChunks(libs, path)).None?
    && libs.saveFailure(VectorIndex(UploadChunks(libs, path))).None?
  }

  /** The chunks the splitter makes of the pages of `path`. */
  function UploadChunks(libs: Libraries, path: string): seq<string>
    requires libs.loadPages(path).Success?
    requires libs.splitText(PagesText(libs.loadPages(path).value), Config.ChunkSize, Config.ChunkOverlap).Success?
  {
    libs.splitText(PagesText(libs.loadPages(path).value), Config.ChunkSize, Config.ChunkOverlap).value
  }

  /** The upload graph ends without error exactly when every step succeeds;
      then it holds the pages' text and the chunks, and the global store is
      the one built from exactly those chunks, whatever it was before. */
  lemma UploadGraphOutcome(libs: Libraries, path: string, store: Option<VectorIndex>)
    ensures var r := UploadGraph(libs, World(UploadInput(path), store));
            && (!Failed(r.state) <==> UploadAccepted(libs, path))
            && (UploadAccepted(libs, path) ==>
                  && r.state.extractedText == Some(PagesText(libs.loadPages(path).value))
                  && r.state.textChunks == Some(UploadChunks(libs, path))
                  && r.store == Some(VectorIndex(UploadChunks(libs, path))))
  {
    UploadIsPipeline(libs, path, store);
    PipelineOutcome(libs, path, store);
  }

  /** A failing save still replaces the global store: the upload reports an
      error while the new store is the one later questions search. */
  lemma SaveFailureKeepsNewStore(libs: Libraries, path: string, store: Option<VectorIndex>)
    requires |path| > 0 && libs.loadPages(path).Success? && |libs.loadPages(path).value| > 0
    requires EnoughText(PagesText(libs.loadPages(path).value))
    requires libs.splitText(PagesText(libs.loadPages(path).value), Config.ChunkSize, Config.ChunkOverlap).Success?
    requires |UploadChunks(libs, path)| > 0
    requires libs.buildFailure(UploadChunks(libs, path)).None?
    requires libs.saveFailure(VectorIndex(UploadChunks(libs, path))).Some?
    ensures var r := UploadGraph(libs, World(UploadInput(path), store));
            && r.state.error == Some(IndexingFailedPrefix + libs.saveFailure(VectorIndex(UploadChunks(libs, path))).value)
            && r.store == Some(VectorIndex(UploadChunks(libs, path)))
  {
    UploadIsPipeline(libs, path, store);
    PipelineSaveFailure(libs, path, store);
  }

  /** A failed upload that changed the global store passed every check and
      every library step up to the build, and failed in the save: any
      earlier failure leaves the store as it was. */
  lemma EarlyUploadFailureKeepsStore(libs: Libraries, path: string, store: Option<VectorIndex>)
    requires !UploadAccepted(libs, path)
    requires UploadGraph(libs, World(UploadInput(path), store)).store != store
    ensures |path| > 0 && libs.loadPages(path).Success? && |libs.loadPages(path).value| > 0
    ensures EnoughText(PagesText(libs.loadPages(path).value))
    ensures libs.splitText(PagesText(libs.loadPages(path).value), Config.ChunkSize, Config.ChunkOverlap).Success?
    ensures |UploadChunks(libs, path)| > 0
    ensures libs.buildFailure(UploadChunks(libs, path)).None?
    ensures libs.saveFailure(VectorIndex(UploadChunks(libs, path))).Some?
  {
    UploadIsPipeline(libs, path, store);
    PipelineEarlyFailure(libs, path, store);
  }

  /** The query graph answers exactly when the store can be had, the search
      finds something and the runtime's reply decodes; the prompt it sends
      is built from the hits, and the answer is the decoded reply. */
  lemma QueryGraphOutcome(libs: Libraries, question: string, store: Option<VectorIndex>)
    requires |question| > 0
    ensures var r := QueryGraph(libs, World(QueryInput(question), store));
            var found := StoreToSearch(libs, store);
            && (!Failed(r.state) <==>
                  && found.Success?
                  && libs.search(found.value, question, Config.TopKRetrieval).Success?
                  && |libs.search(found.value, question, Config.TopKRetrieval).value| > 0
                  && LlmClient.DecodeOllama(libs.ollama(Prompt.Build(
                       libs.search(found.value, question, Config.TopKRetrieval).value, question))).Success?)
            && (!Failed(r.state) ==>
                  var hits := libs.search(found.value, question, Config.TopKRetrieval).value;
                  var prompt := Prompt.Build(hits, question);
                  && r.state.retrievedContexts == Some(hits)
                  && r.state.constructedPrompt == Some(prompt)
                  && r.state.answer == Some(LlmClient.DecodeOllama(libs.ollama(prompt)).value)
                  && r.state.llmSource == Some("ollama"))
            && (Failed(r.state) ==> r.state.answer.None?)
  {
    QueryIsPipeline(libs, question, store);
    QueryPipelineOutcome(libs, question, store);
  }

  // ---------------------------------------------------------------------
  // The graphs as plain compositions, for the proofs above
  // ---------------------------------------------------------------------

  /** The upload graph on a fresh upload state, without the response node. */
  function UploadPipeline(libs: Libraries, path: string, store: Option<VectorIndex>): World {
    EmbeddingIndexing(libs, World(TextProcessing(libs, PdfIngestion(libs, UploadInput(path))), store))
  }

  lemma UploadIsPipeline(libs: Libraries, path: string, store: Option<VectorIndex>)
    ensures UploadGraph(libs, World(UploadInput(path), store)) == UploadPipeline(libs, path, store)
  {
    UploadGraphComposes(libs, World(UploadInput(path), store));
  }

  /** The final state of the query graph on a fresh query state. */
  function QueryPipeline(libs: Libraries, question: string, store: Option<VectorIndex>): GraphState {
    LlmExecution(libs, PromptConstruction(Query(libs, World(QueryInput(question), store)).state))
  }

  lemma QueryIsPipeline(libs: Libraries, question: string, store: Option<VectorIndex>)
    ensures QueryGraph(libs, World(QueryInput(question), store)).state == QueryPipeline(libs, question, store)
  {
    QueryGraphComposes(libs, World(QueryInput(question), store));
  }

  lemma PipelineOutcome(libs: Libraries, path: string, store: Option<VectorIndex>)
    ensures var r := UploadPipeline(libs, path, store);
            && (!Failed(r.state) <==> UploadAccepted(libs, path))
            && (UploadAccepted(libs, path) ==>
                  && r.state.extractedText == Some(PagesText(libs.loadPages(path).value))
                  && r.state.textChunks == Some(UploadChunks(libs, path))
                  && r.store == Some(VectorIndex(UploadChunks(libs, path))))
  {
    var s1 := PdfIngestion(libs, UploadInput(path));
    var s2 := TextProcessing(libs, s1);
    if UploadAccepted(libs, path) {
      assert s1.extractedText == Some(PagesText(libs.loadPages(path).value));
      assert s2.textChunks == Some(UploadChunks(libs, path));
    }
  }

  lemma PipelineSaveFailure(libs: Libraries, path: string, store: Option<VectorIndex>)
    requires |path| > 0 && libs.loadPages(path).Success? && |libs.loadPages(path).value| > 0
    requires EnoughText(PagesText(libs.loadPages(path).value))
    requires libs.splitText(PagesText(libs.loadPages(path).value), Config.ChunkSize, Config.ChunkOverlap).Success?
    requires |UploadChunks(libs, path)| > 0
    requires libs.buildFailure(UploadChunks(libs, path)).None?
    requires libs.saveFailure(VectorIndex(UploadChunks(libs, path))).Some?
    ensures var r := UploadPipeline(libs, path, store);
            && r.state.error == Some(IndexingFailedPrefix + libs.saveFailure(VectorIndex(UploadChunks(libs, path))).value)
            && r.store == Some(VectorIndex(UploadChunks(libs, path)))
  {
    var s1 := PdfIngestion(libs, UploadInput(path));
    assert s1.extractedText == Some(PagesText(libs.loadPages(path).value));
    var s2 := TextProcessing(libs, s1);
    assert s2.textChunks == Some(UploadChunks(libs, path));
  }

  lemma PipelineEarlyFailure(libs: Libraries, path: string, store: Option<VectorIndex>)
    requires !UploadAccepted(libs, path)
    requires UploadPipeline(libs, path, store).store != store
    ensures |path| > 0 && libs.loadPages(path).Success? && |libs.loadPages(path).value| > 0
    ensures EnoughText(PagesText(libs.loadPages(path).value))
    ensures libs.splitText(PagesText(libs.loadPages(path).value), Config.ChunkSize, Config.ChunkOverlap).Success?
    ensures |UploadChunks(libs, path)| > 0
    ensures libs.buildFailure(UploadChunks(libs, path)).None?
    ensures libs.saveFailure(VectorIndex(UploadChunks(libs, path))).Some?
  {
    var s2 := TextProcessing(libs, PdfIngestion(libs, UploadInput(path)));
    assert !Failed(s2) && PresentList(s2.textChunks);
  }

  lemma QueryPipelineOutcome(libs: Libraries, question: string, store: Option<VectorIndex>)
    requires |question| > 0
    ensures var r := QueryPipeline(libs, question, store);
            var found := StoreToSearch(libs, store);
            && (!Failed(r) <==>
                  && found.Success?
                  && libs.search(found.value, question, Config.TopKRetrieval).Success?
                  && |libs.search(found.value, question, Config.TopKRetrieval).value| > 0
                  && LlmClient.DecodeOllama(libs.ollama(Prompt.Build(
                       libs.search(found.value, question, Config.TopKRetrieval).value, question))).Success?)
            && (!Failed(r) ==>
                  var hits := libs.search(found.value, question, Config.TopKRetrieval).value;
                  var prompt := Prompt.Build(hits, question);
                  && r.retrievedContexts == Some(hits)
                  && r.constructedPrompt == Some(prompt)
                  && r.answer == Some(LlmClient.DecodeOllama(libs.ollama(prompt)).value)
                  && r.llmSource == Some("ollama"))
            && (Failed(r) ==> r.answer.None?)
  {
    var w1 := Query(libs, World(QueryInput(question), store));
    QueryNodeOutcome(libs, question, store);
    if !Failed(w1.state) {
      AnswerNodesOutcome(libs, question, w1.state.retrievedContexts.value);
    }
  }

  /** The query node on a fresh query state: it fails, or it records the
      non-empty hits and nothing else. */
  lemma QueryNodeOutcome(libs: Libraries, question: string, store: Option<VectorIndex>)
    requires |question| > 0
    ensures var r := Query(libs, World(QueryInput(question), store)).state;
            var found := StoreToSearch(libs, store);
            && (!Failed(r) <==>
                  && found.Success?
                  && libs.search(found.value, question, Config.TopKRetrieval).Success?
                  && |libs.search(found.value, question, Config.TopKRetrieval).value| > 0)
            && (!Failed(r) ==>
                  r == QueryInput(question).(retrievedContexts :=
                         Some(libs.search(found.value, question, Config.TopKRetrieval).value)))
            && (Failed(r) ==> r.answer.None? && r.constructedPrompt.None?)
  {
  }

  /** The prompt and LLM nodes after a successful search. */
  lemma AnswerNodesOutcome(libs: Libraries, question: string, hits: seq<string>)
    requires |question| > 0 && |hits| > 0
    ensures var r := LlmExecution(libs, PromptConstruction(QueryInput(question).(retrievedContexts := Some(hits))));
            var prompt := Prompt.Build(hits, question);
            && (!Failed(r) <==> LlmClient.DecodeOllama(libs.ollama(prompt)).Success?)
            && (!Failed(r) ==>
                  && r.retrievedContexts == Some(hits)
                  && r.constructedPrompt == Some(prompt)
                  && r.answer == Some(LlmClient.DecodeOllama(libs.ollama(prompt)).value)
                  && r.llmSource == Some("ollama"))
            && (Failed(r) ==> r.answer.None?)
  {
    var s2 := PromptConstruction(QueryInput(question).(retrievedContexts := Some(hits)));
    assert s2.constructedPrompt == Some(Prompt.Build(hits, question));
  }
}

=== FILE: llm_client.dfy ===
/** The language-model client: decoding of the runtime's HTTP replies and the
    rule that every Ollama failure surfaces as one fixed message. The HTTP
    request itself is abstracted to the reply it produced. */
module LlmClient {
  import opened Wrappers
  import opened Text

  /** A decoded JSON document, as Python's `json` module yields it. */
  datatype Json =
    | JNull
    | JBool(b: bool)
    | JNumber(n: int)
    | JString(s: string)
    | JList(items: seq<Json>)
    | JObject(fields: map<string, Json>)

  /** What `requests.post` produced: it raised (connection refused, timeout,
      ...), or it returned a status, a body, and the body parsed as JSON when
      the body is valid JSON. */
  datatype HttpReply =
    | RequestRaised(detail: string)
    | HttpResponse(status: nat, body: string, json: Option<Json>)

  /** Why a call to a model runtime raised. */
  datatype CallError =
    | RequestFailed(detail: string)        // raised by `requests` itself
    | StatusError(status: nat, body: string)  // a reply other than 200
    | BodyNotJson                          // `response.json()` raised
    | NoGetMethod                          // `.get` on something not a dict
    | TextNotString(key: string)           // `.strip()` on something not a str
    | UnexpectedFormat(result: Json)       // HF reply of no known shape

  /** The message of the exception raised for a non-200 status: the text
      form of `StatusError(status, body)`, which the model keeps as data. */
  function StatusMessage(service: string, status: nat, body: string): string {
    service + " error: " + Decimal(status) + " - " + body
  }

  /** `d.get(key, "").strip()` on a JSON object. */
  function FieldText(d: map<string, Json>, key: string): (r: Result<string, CallError>)
    ensures key !in d ==> r == Success("")
    ensures key in d && d[key].JString? ==> r == Success(Strip(d[key].s))
    ensures key in d && !d[key].JString? ==> r == Failure(TextNotString(key))
  {
    if key !in d then Success("")
    else match d[key]
      case JString(t) => Success(Strip(t))
      case _ => Failure(TextNotString(key))
  }

  /** Decoding of an Ollama `/api/generate` reply. */
  function DecodeOllama(reply: HttpReply): (r: Result<string, CallError>)
    ensures reply.RequestRaised? ==> r == Failure(RequestFailed(reply.detail))
    ensures reply.HttpResponse? && reply.status != 200 ==>
              r == Failure(StatusError(reply.status, reply.body))
    ensures reply.HttpResponse? && reply.status == 200 && reply.json.None? ==> r == Failure(BodyNotJson)
    ensures r.Success? <==>
              && reply.HttpResponse? && reply.status == 200
              && reply.json.Some? && reply.json.value.JObject?
              && ("response" in reply.json.value.fields ==>
                    reply.json.value.fields["response"].JString?)
    ensures r.Success? ==> r == FieldText(reply.json.value.fields, "response")
    ensures r.Success? ==> Stripped(r.value)
  {
    match reply
    case RequestRaised(detail) => Failure(RequestFailed(detail))
    case HttpResponse(status, body, json) =>
      if status != 200 then Failure(StatusError(status, body))
      else match json
        case None => Failure(BodyNotJson)
        case Some(JObject(fields)) => FieldText(fields, "response")
        case Some(_) => Failure(NoGetMethod)
  }

  /** Decoding of a HuggingFace Inference API reply. */
  function DecodeHuggingFace(reply: HttpReply): (r: Result<string, CallError>)
    ensures reply.RequestRaised? ==> r == Failure(RequestFailed(reply.detail))
    ensures reply.HttpResponse? && reply.status != 200 ==>
              r == Failure(StatusError(reply.status, reply.body))
    ensures r.Success? ==> Stripped(r.value)
    ensures r.Failure? && r.error.UnexpectedFormat? ==>
              r.error.result == JList([]) || !(r.error.result.JList? || r.error.result.JObject?)
    ensures reply.HttpResponse? && reply.status == 200 && reply.json.None? ==> r == Failure(BodyNotJson)
    ensures r.Failure? && r.error.UnexpectedFormat? ==>
              reply.HttpResponse? && reply.status == 200 && reply.json == Some(r.error.result)
    ensures reply.HttpResponse? && reply.status == 200 && reply.json.Some?
            && (reply.json.value == JList([]) || !(reply.json.value.JList? || reply.json.value.JObject?)) ==>
              r == Failure(UnexpectedFormat(reply.json.value))
  {
    match reply
    case RequestRaised(detail) => Failure(RequestFailed(detail))
    case HttpResponse(status, body, json) =>
      if status != 200 then Failure(StatusError(status, body))
      else match json
        case None => Failure(BodyNotJson)
        case Some(result) =>
          if result.JList? && |result.items| > 0 then
            (match result.items[0]
             case JObject(fields) => FieldText(fields, "generated_text")
             case _ => Failure(NoGetMethod))
          else if result.JObject? then FieldText(result.fields, "generated_text")
          else Failure(UnexpectedFormat(result))
  }

  /** The one message every failure of the Ollama call is re-raised with. */
  /** The text of that message before the model name. */
  const OllamaFailureLead: string := "Ollama failed. Please check: 1) Ollama is running, 2) Model '"

  function OllamaFailureMessage(model: string): string {
    OllamaFailureLead + model + "' is available. Run 'ollama list' to see available models."
  }

  /** `LLMClient.generate`: the decoded text paired with the source name
      "ollama", or the fixed failure message naming the configured model.
      The cause of a failure is not part of the message. */
  function Generate(model: string, reply: HttpReply): (r: Result<(string, string), string>)
    ensures r.Success? <==> DecodeOllama(reply).Success?
    ensures r.Success? ==> r.value == (DecodeOllama(reply).value, "ollama")
    ensures r.Failure? ==> r.error == OllamaFailureMessage(model)
  {
    match DecodeOllama(reply)
    case Success(text) => Success((text, "ollama"))
    case Failure(_) => Failure(OllamaFailureMessage(model))
  }

  /** Round trip: a runtime whose reply object holds `text` under
      "response", whatever else the reply carries, makes `generate` return
      `text` stripped, tagged "ollama"; an already stripped text comes back
      as is. */
  lemma OllamaRoundTrip(model: string, body: string, fields: map<string, Json>, text: string)
    requires "response" in fields && fields["response"] == JString(text)
    ensures Generate(model, HttpResponse(200, body, Some(JObject(fields)))) == Success((Strip(text), "ollama"))
    ensures Stripped(text) ==>
              Generate(model, HttpResponse(200, body, Some(JObject(fields)))) == Success((text, "ollama"))
  {
    if Stripped(text) {
      StripStripped(text);
    }
  }

  /** A reply object without a "response" field decodes to the empty answer. */
  lemma OllamaMissingFieldIsEmpty(model: string, body: string, fields: map<string, Json>)
    requires "response" !in fields
    ensures Generate(model, HttpResponse(200, body, Some(JObject(fields)))) == Success(("", "ollama"))
  {
  }

  /** The failure message hides the cause: every two failing replies give the
      same message, and it quotes the configured model name. */
  lemma FailureHidesCause(model: string, a: HttpReply, b: HttpReply)
    requires DecodeOllama(a).Failure? && DecodeOllama(b).Failure?
    ensures Generate(model, a) == Generate(model, b)
    ensures Occurs(model, Generate(model, a).error)
  {
    var m := Generate(model, a).error;
    assert OccursAt(model, m, |OllamaFailureLead|);
  }

  /** The message of a non-200 reply carries the status code and the body,
      and the status can be read back from it. */
  lemma StatusMessageCarriesStatusAndBody(service: string, status: nat, body: string)
    ensures var m := StatusMessage(service, status, body);
            var at := |service| + |" error: "|;
            && m[at..at + |Decimal(status)|] == Decimal(status)
            && ParseDecimal(m[at..at + |Decimal(status)|]) == status
            && m[|m| - |body|..] == body
  {
    DecimalRoundTrip(status);
  }

  /** HuggingFace replies: a non-empty list is read through its first element,
      and an empty list is the "unexpected format" error. */
  lemma HuggingFaceShapes(body: string, first: Json, rest: seq<Json>, fields: map<string, Json>, t: string)
    ensures DecodeHuggingFace(HttpResponse(200, body, Some(JList([first] + rest))))
         == (if first.JObject? then FieldText(first.fields, "generated_text") else Failure(NoGetMethod))
    ensures DecodeHuggingFace(HttpResponse(200, body, None)) == Failure(BodyNotJson)
    ensures DecodeHuggingFace(HttpResponse(200, body, Some(JList([]))))
         == Failure(UnexpectedFormat(JList([])))
    ensures DecodeHuggingFace(HttpResponse(200, body, Some(JObject(fields))))
         == FieldText(fields, "generated_text")
    ensures "generated_text" in fields && fields["generated_text"] == JString(t) ==>
              DecodeHuggingFace(HttpResponse(200, body, Some(JList([JObject(fields)] + rest)))) == Success(Strip(t))
  {
  }
}

=== FILE: prompt.dfy ===
/** The grounded prompt built by the prompt-construction node: numbered
    chunks joined by a rule, inside a fixed instruction template. */
module Prompt {
  import opened Text

  /** The template text before the context block, one line per entry. */
  const PreambleLines: seq<string> := [
    "You are a helpful AI assistant analyzing a PDF document. Your task is to answer questions STRICTLY based on the provided document content.",
    "",
    "CRITICAL RULES:",
    "1. ONLY use information from the document chunks below",
    "2. If the answer is in the document, provide it and cite which chunk(s) you used (e.g., \"According to Chunk 1...\")",
    "3. If the information is NOT in the document, respond EXACTLY like this:",
    "   \"I cannot find this information in the provided document.",
    "   ",
    "   Would you like me to answer this question using my general AI knowledge instead?\"",
    "4. Be concise but thorough - extract ALL relevant details",
    "5. Quote relevant parts from the document when helpful",
    "6. Do NOT make up or infer information not explicitly stated in the document",
    "",
    "Document Content:"
  ]

  /** The template text before the context block. */
  const Preamble: string := Join(PreambleLines, "\n") + "\n"

  /** The template text between the context block and the question. */
  const QuestionLead: string := "\n\nUser Question: "

  /** The template text after the question. */
  const AnswerCue: string := "\n\nYour Answer (remember to cite chunk numbers if answering from document):"

  /** What separates two numbered chunks in the context block. */
  const ChunkSeparator: string := "\n\n---\n\n"

  /** The header placed before the chunk numbered `i`. */
  function ChunkLabel(i: nat): string {
    "[Chunk " + Decimal(i) + "]\n"
  }

  /** `enumerate(contexts, start)` turned into labelled chunks. */
  function Numbered(contexts: seq<string>, start: nat): (r: seq<string>)
    ensures |r| == |contexts|
    decreases |contexts|
  {
    if |contexts| == 0 then []
    else [ChunkLabel(start) + contexts[0]] + Numbered(contexts[1..], start + 1)
  }

  /** Entry `i` of the numbered list is chunk `i` under the label `start + i`. */
  lemma {:induction false} NumberedAt(contexts: seq<string>, start: nat, i: nat)
    requires i < |contexts|
    ensures Numbered(contexts, start)[i] == ChunkLabel(start + i) + contexts[i]
    decreases i
  {
    if i > 0 {
      NumberedAt(contexts[1..], start + 1, i - 1);
    }
  }

  /** The fixed parts of a prompt: the text before the context block, the
      rule between two chunks, the text between the context block and the
      question, and the text after the question. */
  datatype Template = Template(preamble: string, separator: string,
                               questionLead: string, answerCue: string)

  /** The template the prompt-construction node uses. */
  const Grounded: Template := Template(Preamble, ChunkSeparator, QuestionLead, AnswerCue)

  /** The context block: the chunks numbered from 1, joined by the rule. */
  function Context(t: Template, contexts: seq<string>): string {
    Join(Numbered(contexts, 1), t.separator)
  }

  /** The prompt for `contexts` and `question` under template `t`. */
  function Fill(t: Template, contexts: seq<string>, question: string): string {
    t.preamble + Context(t, contexts) + (t.questionLead + question + t.answerCue)
  }

  /** The prompt the prompt-construction node builds. */
  function Build(contexts: seq<string>, question: string): string {
    Fill(Grounded, contexts, question)
  }

  /** Where chunk `i` (counting from 0) begins inside the prompt. */
  function ChunkStart(t: Template, contexts: seq<string>, i: nat): nat
    requires i < |contexts|
  {
    |t.preamble| + Offset(Numbered(contexts, 1), t.separator, i)
  }

  /** Every retrieved chunk appears verbatim in the prompt, preceded by its
      number counting from 1; and the chunks appear in retrieval order,
      each followed by the separator unless it is the last one. */
  lemma ChunkInPrompt(t: Template, contexts: seq<string>, question: string, i: nat)
    requires i < |contexts|
    ensures OccursAt(ChunkLabel(i + 1), Fill(t, contexts, question), ChunkStart(t, contexts, i))
    ensures OccursAt(contexts[i], Fill(t, contexts, question),
                     ChunkStart(t, contexts, i) + |ChunkLabel(i + 1)|)
    ensures i + 1 < |contexts| ==>
              OccursAt(t.separator, Fill(t, contexts, question),
                       ChunkStart(t, contexts, i) + |ChunkLabel(i + 1)| + |contexts[i]|)
    ensures i + 1 < |contexts| ==>
              ChunkStart(t, contexts, i + 1)
              == ChunkStart(t, contexts, i) + |ChunkLabel(i + 1)| + |contexts[i]| + |t.separator|
    ensures i + 1 == |contexts| ==>
              ChunkStart(t, contexts, i) + |ChunkLabel(i + 1)| + |contexts[i]|
              == |t.preamble| + |Context(t, contexts)|
  {
    var parts := Numbered(contexts, 1);
    var at := ChunkStart(t, contexts, i);
    var p := Fill(t, contexts, question);
    PartInJoin(t.preamble, parts, t.separator, t.questionLead + question + t.answerCue, i);
    if i + 1 < |contexts| {
      SepInJoin(t.preamble, parts, t.separator, t.questionLead + question + t.answerCue, i);
    }
    NumberedAt(contexts, 1, i);
    OccursSplit(ChunkLabel(i + 1), contexts[i], p, at);
    if i + 1 == |contexts| {
      JoinLength(parts, t.separator);
    }
  }

  /** Chunks occur in retrieval order: an earlier chunk starts, and ends,
      before a later one starts. */
  lemma ChunksInOrder(t: Template, contexts: seq<string>, i: nat, j: nat)
    requires i < j < |contexts|
    ensures ChunkStart(t, contexts, i) + |ChunkLabel(i + 1)| + |contexts[i]| + |t.separator|
            <= ChunkStart(t, contexts, j)
  {
    OffsetMonotone(Numbered(contexts, 1), t.separator, i, j);
    NumberedAt(contexts, 1, i);
  }

  /** The number in a chunk's label reads back as its 1-based position. */
  lemma LabelNumbersChunk(i: nat)
    ensures var l := ChunkLabel(i);
            && l[..|"[Chunk "|] == "[Chunk "
            && ParseDecimal(l[|"[Chunk "|..|l| - 2]) == i
            && l[|l| - 2..] == "]\n"
  {
    var l := ChunkLabel(i);
    OccursInMiddle("[Chunk ", Decimal(i), "]\n");
    assert l[|"[Chunk "|..|l| - 2] == Decimal(i);
    DecimalRoundTrip(i);
  }

  /** Different chunks carry different labels. */
  lemma LabelsDistinct(i: nat, j: nat)
    requires i != j
    ensures ChunkLabel(i) != ChunkLabel(j)
  {
    if ChunkLabel(i) == ChunkLabel(j) {
      var n := |"[Chunk "|;
      OccursInMiddle("[Chunk ", Decimal(i), "]\n");
      OccursInMiddle("[Chunk ", Decimal(j), "]\n");
      assert Decimal(i) == ChunkLabel(i)[n..|ChunkLabel(i)| - 2];
      DecimalInjective(i, j);
    }
  }

  /** The question appears verbatim right after the question lead, and the
      prompt ends with the answer cue. */
  lemma QuestionInPrompt(t: Template, contexts: seq<string>, question: string)
    ensures OccursAt(t.questionLead, Fill(t, contexts, question),
                     |t.preamble| + |Context(t, contexts)|)
    ensures OccursAt(question, Fill(t, contexts, question),
                     |t.preamble| + |Context(t, contexts)| + |t.questionLead|)
    ensures EndsWith(Fill(t, contexts, question), t.answerCue)
  {
    var pre := t.preamble + Context(t, contexts);
    var lead, cue := t.questionLead, t.answerCue;
    var p := pre + lead + question + cue;
    assert Fill(t, contexts, question) == p;
    OccursInMiddle(pre, lead, question + cue);
    assert pre + lead + (question + cue) == p;
    OccursInMiddle(pre + lead, question, cue);
    OccursInMiddle(pre + lead + question, cue, "");
    assert p + "" == p;
  }
}

=== FILE: server.dfy ===
/** The two request handlers of the web API, `upload_pdf` and
    `ask_question`, as a state machine over the remembered document path and
    the global vector store. Saving the uploaded file and running a graph are
    inputs; routing, validation of the request body and HTTP transport are
    not modelled. */
module Server {
  import opened Wrappers
  import opened Text
  import opened State
  import Graph

  /** The process-wide state the handlers share: `current_pdf_path` and the
      graph module's `vector_store`. */
  datatype Server = Server(currentPdfPath: Option<string>, store: Option<VectorIndex>)

  /** The server as it starts: nothing uploaded, nothing indexed in memory. */
  const Boot: Server := Server(None, None)

  /** An `HTTPException` leaving a handler. */
  datatype HttpError = HttpError(status: nat, detail: string)

  datatype UploadReply = UploadReply(message: string, filename: string, status: string)

  datatype QueryReply = QueryReply(question: string, answer: string, source: string)

  const NotPdfMessage: string := "Only PDF files are supported"
  const UploadFailedPrefix: string := "Upload failed: "
  const ProcessingFailedPrefix: string := "Processing failed: "
  const UploadedMessage: string := "PDF uploaded and processed successfully"
  const NoDocumentMessage: string := "Please upload a PDF first before asking questions"
  const QueryFailedPrefix: string := "Query failed: "
  const NoAnswerMessage: string := "No answer generated"
  const UnknownSource: string := "unknown"

  /** How the graph runtime hands back its final state: the state object, or
      a dict that either keeps or drops the keys of unset fields. */
  datatype Shape = ObjectShape | DictShape(keepsUnset: bool)

  /** A final state as the handler sees it. A dict is modelled by the three
      keys the handlers read; a key mapped to `None` is a key whose value is
      Python's `None`. */
  datatype FinalState = AsObject(state: GraphState) | AsDict(fields: map<string, Option<string>>)

  function Entry(m: map<string, Option<string>>, key: string, v: Option<string>, keepsUnset: bool)
    : map<string, Option<string>>
  {
    if v.Some? || keepsUnset then m[key := v] else m
  }

  function Represent(s: GraphState, shape: Shape): FinalState {
    match shape
    case ObjectShape => AsObject(s)
    case DictShape(keep) =>
      AsDict(Entry(Entry(Entry(map[], "error", s.error, keep), "answer", s.answer, keep),
                   "llm_source", s.llmSource, keep))
  }

  /** `d.get(key)`: the value, or `None` when the key is absent. */
  function Get(m: map<string, Option<string>>, key: string): Option<string> {
    if key in m then m[key] else None
  }

  /** The error a handler finds in a final state, when it is truthy. */
  function FinalError(f: FinalState): (e: Option<string>)
    ensures e.Some? ==> |e.value| > 0
    ensures f.AsObject? ==> (e.Some? <==> Failed(f.state)) && (e.Some? ==> e == f.state.error)
    ensures f.AsDict? ==> (e.Some? <==> Present(Get(f.fields, "error"))) && (e.Some? ==> e == Get(f.fields, "error"))
  {
    var v := match f
      case AsObject(s) => s.error
      case AsDict(m) => Get(m, "error");
    if Present(v) then v else None
  }

  /** Whatever the shape, the handler finds the graph's error. */
  lemma FinalErrorAnyShape(s: GraphState, shape: Shape)
    ensures FinalError(Represent(s, shape)) == (if Failed(s) then s.error else None)
  {
  }

  // ---------------------------------------------------------------------
  // upload_pdf
  // ---------------------------------------------------------------------

  /** What the upload handler decides once the graph has run. */
  function UploadDecision(filename: string, f: FinalState): (r: Result<UploadReply, HttpError>)
    ensures FinalError(f).Some? <==> r.Failure?
    ensures r.Failure? ==> r.error == HttpError(500, ProcessingFailedPrefix + FinalError(f).value)
    ensures r.Success? ==> r.value == UploadReply(UploadedMessage, filename, "success")
  {
    match FinalError(f)
    case Some(e) => Failure(HttpError(500, ProcessingFailedPrefix + e))
    case None => Success(UploadReply(UploadedMessage, filename, "success"))
  }

  /** `upload_pdf`. The file is saved to `path`, or saving raises
      `saveFailure`; the upload graph runs from a state holding only `path`. */
  function Upload(srv: Server, filename: string, path: string, saveFailure: Option<string>,
                  libs: Libraries, shape: Shape): (r: (Server, Result<UploadReply, HttpError>))
    ensures !EndsWith(filename, ".pdf") ==> r == (srv, Failure(HttpError(400, NotPdfMessage)))
    ensures EndsWith(filename, ".pdf") && saveFailure.Some? ==>
              r == (srv, Failure(HttpError(500, UploadFailedPrefix + saveFailure.value)))
    ensures r.1.Success? <==>
              && EndsWith(filename, ".pdf") && saveFailure.None?
              && !Failed(Graph.UploadGraph(libs, World(UploadInput(path), srv.store)).state)
    ensures r.1.Success? ==> r.0.currentPdfPath == Some(path)
    ensures r.1.Failure? ==> r.0.currentPdfPath == srv.currentPdfPath
    ensures EndsWith(filename, ".pdf") && saveFailure.None? ==>
              var g := Graph.UploadGraph(libs, World(UploadInput(path), srv.store));
              && r.0.store == g.store
              && r.1 == UploadDecision(filename, Represent(g.state, shape))
              && (Failed(g.state) ==> r.1 == Failure(HttpError(500, ProcessingFailedPrefix + g.state.error.value)))
              && (!Failed(g.state) ==> r.1 == Success(UploadReply(UploadedMessage, filename, "success")))
  {
    if !EndsWith(filename, ".pdf") then (srv, Failure(HttpError(400, NotPdfMessage)))
    else if saveFailure.Some? then (srv, Failure(HttpError(500, UploadFailedPrefix + saveFailure.value)))
    else
      var g := Graph.UploadGraph(libs, World(UploadInput(path), srv.store));
      FinalErrorAnyShape(g.state, shape);
      var decision := UploadDecision(filename, Represent(g.state, shape));
      var path' := if decision.Success? then Some(path) else srv.currentPdfPath;
      (Server(path', g.store), decision)
  }

  // ---------------------------------------------------------------------
  // ask_question
  // ---------------------------------------------------------------------

  /** The answer a handler reads from a final state. */
  function FinalAnswer(f: FinalState): Option<string> {
    match f
    case AsObject(s) => s.answer
    case AsDict(m) => Get(m, "answer")
  }

  /** The source a handler reads from a final state: the object branch falls
      back to "unknown" whenever the source is falsy, the dict branch only
      when the key is absent (a key holding `None` yields `None`). */
  function FinalSource(f: FinalState): (src: Option<string>)
    ensures f.AsObject? ==> src == Some(if Present(f.state.llmSource) then f.state.llmSource.value else UnknownSource)
    ensures f.AsDict? && "llm_source" !in f.fields ==> src == Some(UnknownSource)
    ensures f.AsDict? && "llm_source" in f.fields ==> src == f.fields["llm_source"]
  {
    match f
    case AsObject(s) => Some(if Present(s.llmSource) then s.llmSource.value else UnknownSource)
    case AsDict(m) => if "llm_source" in m then m["llm_source"] else Some(UnknownSource)
  }

  /** What the ask handler decides once the query graph has run. A source of
      `None` fails the response model's validation, which the handler turns
      into a 500 carrying the validation message `invalidSource`. */
  function AskDecision(question: string, f: FinalState, invalidSource: string)
    : (r: Result<QueryReply, HttpError>)
    ensures FinalError(f).Some? ==> r == Failure(HttpError(500, QueryFailedPrefix + FinalError(f).value))
    ensures FinalError(f).None? && !Present(FinalAnswer(f)) ==> r == Failure(HttpError(500, NoAnswerMessage))
    ensures FinalError(f).None? && Present(FinalAnswer(f)) && FinalSource(f).None? ==>
              r == Failure(HttpError(500, QueryFailedPrefix + invalidSource))
    ensures r.Success? <==> FinalError(f).None? && Present(FinalAnswer(f)) && FinalSource(f).Some?
    ensures r.Success? ==>
              && r.value.question == question
              && Some(r.value.answer) == FinalAnswer(f) && |r.value.answer| > 0
              && Some(r.value.source) == FinalSource(f)
  {
    match FinalError(f)
    case Some(e) => Failure(HttpError(500, QueryFailedPrefix + e))
    case None =>
      if !Present(FinalAnswer(f)) then Failure(HttpError(500, NoAnswerMessage))
      else match FinalSource(f)
        case None => Failure(HttpError(500, QueryFailedPrefix + invalidSource))
        case Some(source) => Success(QueryReply(question, FinalAnswer(f).value, source))
  }

  /** `ask_question`. The request model guarantees a non-empty question. */
  function Ask(srv: Server, question: string, libs: Libraries, shape: Shape, invalidSource: string)
    : (r: (Server, Result<QueryReply, HttpError>))
    requires |question| >= 1
    ensures r.0.currentPdfPath == srv.currentPdfPath
    ensures !Present(srv.currentPdfPath) ==> r == (srv, Failure(HttpError(400, NoDocumentMessage)))
    ensures Present(srv.currentPdfPath) ==>
              var g := Graph.QueryGraph(libs, World(QueryInput(question), srv.store));
              && r.0.store == g.store
              && r.1 == AskDecision(question, Represent(g.state, shape), invalidSource)
  {
    if !Present(srv.currentPdfPath) then (srv, Failure(HttpError(400, NoDocumentMessage)))
    else
      var g := Graph.QueryGraph(libs, World(QueryInput(question), srv.store));
      (srv.(store := g.store), AskDecision(question, Represent(g.state, shape), invalidSource))
  }

  /** Before any document is remembered the query graph is never run: the
      reply does not depend on the libraries, and the store is untouched. */
  lemma AskWithoutDocument(srv: Server, question: string, libs1: Libraries, libs2: Libraries,
                           shape: Shape, invalidSource: string)
    requires |question| >= 1
    requires !Present(srv.currentPdfPath)
    ensures Ask(srv, question, libs1, shape, invalidSource) == Ask(srv, question, libs2, shape, invalidSource)
    ensures Ask(srv, question, libs1, shape, invalidSource).0 == srv
  {
  }

  /** A query-graph result that holds an answer also holds the source
      "ollama", so the three shapes lead to the same reply. */
  lemma AskShapeIrrelevant(libs: Libraries, question: string, store: Option<VectorIndex>,
                           shape1: Shape, shape2: Shape, invalidSource: string)
    requires |question| >= 1
    ensures var g := Graph.QueryGraph(libs, World(QueryInput(question), store));
            AskDecision(question, Represent(g.state, shape1), invalidSource)
            == AskDecision(question, Represent(g.state, shape2), invalidSource)
  {
    var g := Graph.QueryGraph(libs, World(QueryInput(question), store));
    Graph.QueryGraphOutcome(libs, question, store);
    DecisionShapeFree(question, g.state, shape1, shape2, invalidSource);
  }

  /** A final state whose answer always comes with the source "ollama" gets
      the same decision whatever its shape. */
  lemma DecisionShapeFree(question: string, s: GraphState, shape1: Shape, shape2: Shape,
                          invalidSource: string)
    requires Present(s.answer) ==> s.llmSource == Some("ollama")
    ensures AskDecision(question, Represent(s, shape1), invalidSource)
         == AskDecision(question, Represent(s, shape2), invalidSource)
  {
    FinalErrorAnyShape(s, shape1);
    FinalErrorAnyShape(s, shape2);
  }

  /** Where the two branches differ on a final state with an answer but no
      source: the object branch and a dict without the key say "unknown", a
      dict holding `None` fails validation, and an empty source is kept by
      the dict branch but replaced by the object branch. */
  lemma SourceDefaulting(question: string, answer: string, invalidSource: string)
    requires |answer| > 0
    ensures var s := GraphState(None, Some(question), None, None, None, None, Some(answer), None, None);
            && AskDecision(question, Represent(s, ObjectShape), invalidSource)
               == Success(QueryReply(question, answer, UnknownSource))
            && AskDecision(question, Represent(s, DictShape(false)), invalidSource)
               == Success(QueryReply(question, answer, UnknownSource))
            && AskDecision(question, Represent(s, DictShape(true)), invalidSource)
               == Failure(HttpError(500, QueryFailedPrefix + invalidSource))
    ensures var s := GraphState(None, Some(question), None, None, None, None, Some(answer), Some(""), None);
            && AskDecision(question, Represent(s, ObjectShape), invalidSource)
               == Success(QueryReply(question, answer, UnknownSource))
            && AskDecision(question, Represent(s, DictShape(false)), invalidSource)
               == Success(QueryReply(question, answer, ""))
  {
  }

  // ---------------------------------------------------------------------
  // Sequences of requests
  // ---------------------------------------------------------------------

  /** One request, together with how the libraries behave while it is
      served: the file saved under a name may have been overwritten since,
      the model runtime may be up for one request and down for the next,
      and `load_local` reads whatever the last save wrote. */
  datatype Request =
    | UploadRequest(filename: string, path: string, saveFailure: Option<string>, libs: Libraries)
    | AskRequest(question: string, libs: Libraries)

  datatype Reply =
    | UploadResult(upload: Result<UploadReply, HttpError>)
    | AskResult(ask: Result<QueryReply, HttpError>)

  /** Every question in the requests passes the request model's check. */
  predicate ValidRequests(reqs: seq<Request>) {
    forall i :: 0 <= i < |reqs| ==> (reqs[i].AskRequest? ==> |reqs[i].question| >= 1)
  }

  predicate UploadSucceeded(reply: Reply) {
    reply.UploadResult? && reply.upload.Success?
  }

  predicate AskSucceeded(reply: Reply) {
    reply.AskResult? && reply.ask.Success?
  }

  function Handle(srv: Server, req: Request, shape: Shape, invalidSource: string)
    : (r: (Server, Reply))
    requires req.AskRequest? ==> |req.question| >= 1
    ensures r.0.currentPdfPath != srv.currentPdfPath ==>
              req.UploadRequest? && UploadSucceeded(r.1)
              && r.0.currentPdfPath == Some(req.path)
    ensures !Present(srv.currentPdfPath) ==> !AskSucceeded(r.1)
  {
    match req
    case UploadRequest(filename, path, saveFailure, _) =>
      var u := Upload(srv, filename, path, saveFailure, req.libs, shape);
      (u.0, UploadResult(u.1))
    case AskRequest(question, _) =>
      var a := Ask(srv, question, req.libs, shape, invalidSource);
      (a.0, AskResult(a.1))
  }

  /** The requests handled one after another, with the reply to each. */
  function Serve(srv: Server, reqs: seq<Request>, shape: Shape, invalidSource: string)
    : (r: (Server, seq<Reply>))
    requires ValidRequests(reqs)
    ensures |r.1| == |reqs|
    decreases |reqs|
  {
    if |reqs| == 0 then (srv, [])
    else
      var h := Handle(srv, reqs[0], shape, invalidSource);
      var t := Serve(h.0, reqs[1..], shape, invalidSource);
      (t.0, [h.1] + t.1)
  }

  /** One step of `Serve`: the first request is handled, then the rest from
      the state it leaves. */
  lemma ServeUnfold(srv: Server, reqs: seq<Request>, shape: Shape, invalidSource: string)
    requires ValidRequests(reqs) && |reqs| > 0
    ensures ValidRequests(reqs[1..])
    ensures var h := Handle(srv, reqs[0], shape, invalidSource);
            var t := Serve(h.0, reqs[1..], shape, invalidSource);
            Serve(srv, reqs, shape, invalidSource) == (t.0, [h.1] + t.1)
  {
    var tail := reqs[1..];
    forall k | 0 <= k < |tail| ensures tail[k].AskRequest? ==> |tail[k].question| >= 1 {
      assert tail[k] == reqs[k + 1];
    }
  }

  /** Reference definition of the remembered path: the path of the last
      upload whose reply was a success, or `initial` if there is none. */
  function LastUploaded(initial: Option<string>, reqs: seq<Request>, replies: seq<Reply>): Option<string>
    requires |replies| == |reqs|
    decreases |reqs|
  {
    if |reqs| == 0 then initial
    else if reqs[|reqs| - 1].UploadRequest? && UploadSucceeded(replies[|reqs| - 1])
    then Some(reqs[|reqs| - 1].path)
    else LastUploaded(initial, reqs[..|reqs| - 1], replies[..|reqs| - 1])
  }

  /** After any sequence of requests the server remembers the path of the
      last successful upload, and nothing else. */
  lemma {:induction false} ServeRemembersLastUpload(srv: Server, reqs: seq<Request>, shape: Shape,
                                                    invalidSource: string)
    requires ValidRequests(reqs)
    ensures var r := Serve(srv, reqs, shape, invalidSource);
            r.0.currentPdfPath == LastUploaded(srv.currentPdfPath, reqs, r.1)
    decreases |reqs|
  {
    if |reqs| > 0 {
      ServeUnfold(srv, reqs, shape, invalidSource);
      var h := Handle(srv, reqs[0], shape, invalidSource);
      var t := Serve(h.0, reqs[1..], shape, invalidSource);
      ServeRemembersLastUpload(h.0, reqs[1..], shape, invalidSource);
      LastUploadedCons(srv.currentPdfPath, h.0.currentPdfPath, reqs, [h.1] + t.1);
      assert ([h.1] + t.1)[1..] == t.1;
    }
  }

  /** `LastUploaded` over a non-empty trace is `LastUploaded` over its tail,
      started from what the first request leaves remembered. */
  lemma {:induction false} LastUploadedCons(initial: Option<string>, next: Option<string>,
                                            reqs: seq<Request>, replies: seq<Reply>)
    requires |reqs| == |replies| > 0
    requires next == (if reqs[0].UploadRequest? && UploadSucceeded(replies[0]) then Some(reqs[0].path)
                      else initial)
    ensures LastUploaded(initial, reqs, replies) == LastUploaded(next, reqs[1..], replies[1..])
    decreases |reqs|
  {
    var n := |reqs|;
    if n > 1 {
      assert reqs[1..][..n - 2] == reqs[..n - 1][1..];
      assert replies[1..][..n - 2] == replies[..n - 1][1..];
      LastUploadedCons(initial, next, reqs[..n - 1], replies[..n - 1]);
    }
  }

  /** Starting with nothing remembered, no question is answered before an
      upload has succeeded. */
  lemma NoAnswerBeforeUpload(srv: Server, reqs: seq<Request>, shape: Shape, invalidSource: string, i: nat)
    requires ValidRequests(reqs)
    requires !Present(srv.currentPdfPath)
    requires i < |reqs|
    requires AskSucceeded(Serve(srv, reqs, shape, invalidSource).1[i])
    ensures exists j :: 0 <= j < i && UploadSucceeded(Serve(srv, reqs, shape, invalidSource).1[j])
  {
    ServeAnswersAfterUpload(srv, reqs, shape, invalidSource, false);
    AnswerHasEarlierUpload(false, Serve(srv, reqs, shape, invalidSource).1, i);
  }

  /** A server that has just started remembers, after any sequence of
      requests, the path of the last successful upload or nothing, and
      answers a question only after an upload has succeeded. */
  lemma ServeFromBoot(reqs: seq<Request>, shape: Shape, invalidSource: string)
    requires ValidRequests(reqs)
    ensures var r := Serve(Boot, reqs, shape, invalidSource);
            && r.0.currentPdfPath == LastUploaded(None, reqs, r.1)
            && forall i :: 0 <= i < |r.1| && AskSucceeded(r.1[i]) ==>
                 exists j :: 0 <= j < i && UploadSucceeded(r.1[j])
  {
    var r := Serve(Boot, reqs, shape, invalidSource);
    ServeRemembersLastUpload(Boot, reqs, shape, invalidSource);
    forall i | 0 <= i < |r.1| && AskSucceeded(r.1[i])
      ensures exists j :: 0 <= j < i && UploadSucceeded(r.1[j])
    {
      NoAnswerBeforeUpload(Boot, reqs, shape, invalidSource, i);
    }
  }

  /** A trace of replies in which no question is answered unless an upload
      has succeeded earlier in it, or `uploaded` says one succeeded before it. */
  predicate AnswersAfterUpload(uploaded: bool, replies: seq<Reply>)
    decreases |replies|
  {
    |replies| == 0
    || (&& (uploaded || !AskSucceeded(replies[0]))
        && AnswersAfterUpload(uploaded || UploadSucceeded(replies[0]), replies[1..]))
  }

  /** The replies `Serve` gives answer questions only after a successful
      upload, as long as nothing usable is remembered at the start. */
  lemma {:induction false} ServeAnswersAfterUpload(srv: Server, reqs: seq<Request>, shape: Shape,
                                                   invalidSource: string, uploaded: bool)
    requires ValidRequests(reqs)
    requires uploaded || !Present(srv.currentPdfPath)
    ensures AnswersAfterUpload(uploaded, Serve(srv, reqs, shape, invalidSource).1)
    decreases |reqs|
  {
    if |reqs| > 0 {
      ServeUnfold(srv, reqs, shape, invalidSource);
      var h := Handle(srv, reqs[0], shape, invalidSource);
      var rest := Serve(h.0, reqs[1..], shape, invalidSource).1;
      ServeAnswersAfterUpload(h.0, reqs[1..], shape, invalidSource, uploaded || UploadSucceeded(h.1));
      assert ([h.1] + rest)[1..] == rest;
    }
  }

  /** In such a trace every answered question has a successful upload
      before it, unless `uploaded` says one came before the trace. */
  lemma {:induction false} AnswerHasEarlierUpload(uploaded: bool, replies: seq<Reply>, i: nat)
    requires AnswersAfterUpload(uploaded, replies)
    requires i < |replies| && AskSucceeded(replies[i])
    ensures uploaded || exists j :: 0 <= j < i && UploadSucceeded(replies[j])
    decreases i
  {
    if i > 0 && !uploaded {
      var first := UploadSucceeded(replies[0]);
      assert replies[1..][i - 1] == replies[i];
      AnswerHasEarlierUpload(first, replies[1..], i - 1);
      if !first {
        var j :| 0 <= j < i - 1 && UploadSucceeded(replies[1..][j]);
        assert replies[j + 1] == replies[1..][j];
      }
    }
  }
}

=== FILE: state.dfy ===
/** The record that flows through the pipeline graphs, the process-wide
    vector store next to it, and the behaviour of the libraries the nodes
    call, which the model takes as given. */
module State {
  import opened Wrappers
  import LlmClient

  /** `GraphState`: every field may be unset (`None`). */
  datatype GraphState = GraphState(
    pdfPath: Option<string>,
    question: Option<string>,
    extractedText: Option<string>,
    textChunks: Option<seq<string>>,
    retrievedContexts: Option<seq<string>>,
    constructedPrompt: Option<string>,
    answer: Option<string>,
    llmSource: Option<string>,
    error: Option<string>)

  /** The state the upload handler starts the upload graph with. */
  function UploadInput(path: string): GraphState {
    GraphState(Some(path), None, None, None, None, None, None, None, None)
  }

  /** The state the ask handler starts the query graph with. */
  function QueryInput(question: string): GraphState {
    GraphState(None, Some(question), None, None, None, None, None, None, None)
  }

  /** Python truthiness of an optional string: set and non-empty. */
  predicate Present(o: Option<string>) {
    o.Some? && |o.value| > 0
  }

  /** Python truthiness of an optional list: set and non-empty. */
  predicate PresentList<T>(o: Option<seq<T>>) {
    o.Some? && |o.value| > 0
  }

  /** The state carries an error: `if state.error:` holds. */
  predicate Failed(s: GraphState) {
    Present(s.error)
  }

  /** A FAISS store built from `texts`. Vectors are left out: only which
      chunk texts the store holds is modelled. */
  datatype VectorIndex = VectorIndex(texts: seq<string>)

  /** The graph state together with the module-level `vector_store`. */
  datatype World = World(state: GraphState, store: Option<VectorIndex>)

  /** What the libraries called by the nodes do, taken as given. A function
      returning `Some(message)` or `Failure(message)` stands for the call
      raising an exception with that message. */
  datatype Libraries = Libraries(
    // `PyPDFLoader(path).load()`: the pages' `page_content`, in page order
    loadPages: string -> Result<seq<string>, string>,
    // `RecursiveCharacterTextSplitter(chunk_size, chunk_overlap).split_text`
    splitText: (string, nat, nat) -> Result<seq<string>, string>,
    // `FAISS.from_texts(chunks)` raising
    buildFailure: seq<string> -> Option<string>,
    // `vector_store.save_local(...)` raising
    saveFailure: VectorIndex -> Option<string>,
    // `FAISS.load_local(...)`
    loadIndex: Result<VectorIndex, string>,
    // `similarity_search(question, k)`: the hits' `page_content`, best first
    search: (VectorIndex, string, nat) -> Result<seq<string>, string>,
    // the HTTP exchange with Ollama for a prompt
    ollama: string -> LlmClient.HttpReply)
}

=== FILE: text.dfy ===
/** The few string operations of Python's `str` that the backend relies on:
    `strip()`, `sep.join(parts)`, `endswith(suffix)` and `str(n)` for a
    non-negative integer. Strings are sequences of Unicode code points. */
module Text {

  /** The characters Python's `str.isspace()` accepts, which are the ones
      `str.strip()` removes when called without arguments. */
  predicate IsSpace(c: char) {
    || c == ' ' || c == '\t' || c == '\n' || c == '\r'
    || c == '\U{0B}' || c == '\U{0C}'
    || ('\U{1C}' <= c <= '\U{1F}')
    || c == '\U{85}' || c == '\U{A0}' || c == '\U{1680}'
    || ('\U{2000}' <= c <= '\U{200A}')
    || c == '\U{2028}' || c == '\U{2029}' || c == '\U{202F}'
    || c == '\U{205F}' || c == '\U{3000}'
  }

  predicate AllSpace(s: string) {
    forall k :: 0 <= k < |s| ==> IsSpace(s[k])
  }

  /** A string with no whitespace at either end: what `strip()` returns. */
  predicate Stripped(s: string) {
    |s| == 0 || (!IsSpace(s[0]) && !IsSpace(s[|s| - 1]))
  }

  /** Number of leading whitespace characters of `s`. */
  function LeadingSpace(s: string): (n: nat)
    ensures n <= |s|
    ensures AllSpace(s[..n])
    ensures n < |s| ==> !IsSpace(s[n])
  {
    if |s| > 0 && IsSpace(s[0]) then
      var m := LeadingSpace(s[1..]);
      assert s[1..][..m] == s[1..m + 1];
      1 + m
    else 0
  }

  /** Number of trailing whitespace characters of `s`. */
  function TrailingSpace(s: string): (n: nat)
    ensures n <= |s|
    ensures AllSpace(s[|s| - n..])
    ensures n < |s| ==> !IsSpace(s[|s| - 1 - n])
  {
    if |s| > 0 && IsSpace(s[|s| - 1]) then
      var m := TrailingSpace(s[..|s| - 1]);
      assert s[..|s| - 1][|s| - 1 - m..] == s[|s| - 1 - m..|s| - 1];
      1 + m
    else 0
  }

  /** Python's `s.strip()`: `s` without its leading and trailing whitespace.
      The result is a slice of `s`, everything cut off is whitespace, and
      what is left starts and ends with a non-space. */
  function Strip(s: string): (r: string)
    ensures Stripped(r)
    ensures exists lo, hi :: 0 <= lo <= hi <= |s| && r == s[lo..hi]
                              && AllSpace(s[..lo]) && AllSpace(s[hi..])
  {
    var lo := LeadingSpace(s);
    var rest := s[lo..];
    var t := TrailingSpace(rest);
    var hi := lo + |rest| - t;
    assert rest[|rest| - t..] == s[hi..];
    assert rest[..|rest| - t] == s[lo..hi];
    s[lo..hi]
  }

  /** `Strip` is pinned down by its contract: whitespace padding around a
      stripped core strips back to exactly that core. */
  lemma StripPadded(a: string, t: string, b: string)
    requires AllSpace(a) && AllSpace(b) && Stripped(t)
    ensures Strip(a + t + b) == t
  {
    if |t| == 0 {
      assert a + t + b == a + b;
      StripAllSpace(a + b);
    } else {
      var s := a + t + b;
      var r := Strip(s);
      var lo, hi :| 0 <= lo <= hi <= |s| && r == s[lo..hi]
                    && AllSpace(s[..lo]) && AllSpace(s[hi..]);
      SpaceSlices(s, lo, hi);
      CutsAroundCore(a, t, b, lo, hi);
      assert s[|a|..|a| + |t|] == t;
    }
  }

  /** A string made of whitespace strips to the empty string. */
  lemma StripAllSpace(s: string)
    requires AllSpace(s)
    ensures Strip(s) == ""
  {
    var r := Strip(s);
    var lo, hi :| 0 <= lo <= hi <= |s| && r == s[lo..hi];
  }

  /** The ends of a non-empty stripped `t` are not whitespace, so cuts that
      leave only whitespace outside cannot reach into `t`; cuts that leave a
      stripped slice cannot stop inside the padding either. */
  lemma CutsAroundCore(a: string, t: string, b: string, lo: nat, hi: nat)
    requires AllSpace(a) && AllSpace(b) && Stripped(t) && |t| > 0
    requires lo <= hi <= |a + t + b|
    requires forall k :: 0 <= k < lo ==> IsSpace((a + t + b)[k])
    requires forall k :: hi <= k < |a + t + b| ==> IsSpace((a + t + b)[k])
    requires Stripped((a + t + b)[lo..hi])
    ensures lo == |a| && hi == |a| + |t|
  {
    var s := a + t + b;
    assert !IsSpace(s[|a|]) by { assert s[|a|] == t[0]; }
    assert !IsSpace(s[|a| + |t| - 1]) by { assert s[|a| + |t| - 1] == t[|t| - 1]; }
    assert lo <= |a| && |a| + |t| <= hi;
    var r := s[lo..hi];
    assert r[0] == s[lo] && r[|r| - 1] == s[hi - 1];
    assert forall k :: 0 <= k < |a| ==> s[k] == a[k];
    assert forall k :: |a| + |t| <= k < |s| ==> s[k] == b[k - |a| - |t|];
  }

  /** Restates `AllSpace` of a prefix and a suffix index by index. */
  lemma SpaceSlices(s: string, lo: nat, hi: nat)
    requires lo <= hi <= |s|
    requires AllSpace(s[..lo]) && AllSpace(s[hi..])
    ensures forall k :: 0 <= k < lo ==> IsSpace(s[k])
    ensures forall k :: hi <= k < |s| ==> IsSpace(s[k])
  {
    assert forall k :: 0 <= k < lo ==> s[k] == s[..lo][k];
    assert forall k :: hi <= k < |s| ==> s[k] == s[hi..][k - hi];
  }

  /** A stripped string strips to itself. */
  lemma StripStripped(t: string)
    requires Stripped(t)
    ensures Strip(t) == t
  {
    StripPadded("", t, "");
    assert "" + t + "" == t;
  }

  /** Stripping twice is stripping once. */
  lemma StripIdempotent(s: string)
    ensures Strip(Strip(s)) == Strip(s)
  {
    StripStripped(Strip(s));
  }

  /** A string strips to the empty string exactly when it is all whitespace. */
  lemma StripEmptyIffAllSpace(s: string)
    ensures Strip(s) == "" <==> AllSpace(s)
  {
    if AllSpace(s) {
      StripAllSpace(s);
    } else {
      StripKeepsNonSpace(s);
    }
  }

  /** A string with a non-whitespace character strips to a non-empty one. */
  lemma StripKeepsNonSpace(s: string)
    requires !AllSpace(s)
    ensures |Strip(s)| > 0
  {
    var r := Strip(s);
    var lo, hi :| 0 <= lo <= hi <= |s| && r == s[lo..hi]
                  && AllSpace(s[..lo]) && AllSpace(s[hi..]);
    var k :| 0 <= k < |s| && !IsSpace(s[k]);
    CutAroundNonSpace(s, lo, hi, k);
  }

  /** Cuts that leave only whitespace outside keep every other character. */
  lemma CutAroundNonSpace(s: string, lo: nat, hi: nat, k: nat)
    requires lo <= hi <= |s| && AllSpace(s[..lo]) && AllSpace(s[hi..])
    requires k < |s| && !IsSpace(s[k])
    ensures lo <= k < hi
  {
    SpaceSlices(s, lo, hi);
  }

  /** `sub` occurs in `s` starting at index `i`. */
  predicate OccursAt(sub: string, s: string, i: int) {
    0 <= i && i + |sub| <= |s| && s[i..i + |sub|] == sub
  }

  /** Python's `sub in s` for strings. */
  ghost predicate Occurs(sub: string, s: string) {
    exists i :: OccursAt(sub, s, i)
  }

  /** Python's `s.endswith(suffix)`. */
  predicate EndsWith(s: string, suffix: string) {
    |suffix| <= |s| && OccursAt(suffix, s, |s| - |suffix|)
  }

  /** The middle piece of a concatenation occurs right after the first. */
  lemma OccursInMiddle(a: string, x: string, b: string)
    ensures OccursAt(x, a + x + b, |a|)
  {
    assert (a + x + b)[|a|..|a| + |x|] == x;
  }

  /** An occurrence survives appending text after it. */
  lemma OccursInPrefix(x: string, s: string, i: int, b: string)
    requires OccursAt(x, s, i)
    ensures OccursAt(x, s + b, i)
  {
    assert (s + b)[i..i + |x|] == s[i..i + |x|];
  }

  /** An occurrence survives prepending text, shifted by its length. */
  lemma OccursInSuffix(a: string, x: string, s: string, i: int)
    requires OccursAt(x, s, i)
    ensures OccursAt(x, a + s, |a| + i)
  {
    assert (a + s)[|a| + i..|a| + i + |x|] == s[i..i + |x|];
  }

  /** An occurrence of `x + y` is an occurrence of `x` followed by one of `y`. */
  lemma OccursSplit(x: string, y: string, s: string, i: int)
    requires OccursAt(x + y, s, i)
    ensures OccursAt(x, s, i) && OccursAt(y, s, i + |x|)
  {
    var w := s[i..i + |x + y|];
    assert w == x + y;
    assert s[i..i + |x|] == w[..|x|] == x;
    assert s[i + |x|..i + |x| + |y|] == w[|x|..] == y;
  }

  /** Python's `sep.join(parts)`. */
  function Join(parts: seq<string>, sep: string): string
    decreases |parts|
  {
    if |parts| == 0 then ""
    else if |parts| == 1 then parts[0]
    else parts[0] + sep + Join(parts[1..], sep)
  }

  /** Where `parts[i]` starts inside `Join(parts, sep)`: the lengths of the
      earlier parts, each followed by one separator. */
  function Offset(parts: seq<string>, sep: string, i: nat): nat
    requires i <= |parts|
  {
    if i == 0 then 0 else Offset(parts, sep, i - 1) + |parts[i - 1]| + |sep|
  }

  /** Every part appears verbatim at its offset in the joined string, and
      the separator sits between each two neighbours. */
  lemma {:induction false} JoinLayout(parts: seq<string>, sep: string, i: nat)
    requires i < |parts|
    ensures OccursAt(parts[i], Join(parts, sep), Offset(parts, sep, i))
    ensures i + 1 < |parts| ==> OccursAt(sep, Join(parts, sep), Offset(parts, sep, i) + |parts[i]|)
    decreases i
  {
    if |parts| == 1 {
      OccursInMiddle("", parts[0], "");
      assert "" + parts[0] + "" == Join(parts, sep);
    } else if i == 0 {
      JoinHead(parts[0], sep, Join(parts[1..], sep));
    } else {
      var tail := parts[1..];
      assert parts[i] == tail[i - 1];
      OffsetShift(parts, sep, i);
      JoinLayout(tail, sep, i - 1);
      var o := Offset(tail, sep, i - 1);
      JoinShift(parts[0], sep, Join(tail, sep), tail[i - 1], o);
      if i + 1 < |parts| {
        JoinShift(parts[0], sep, Join(tail, sep), sep, o + |tail[i - 1]|);
      }
    }
  }

  /** The first part of a join of two or more parts starts it, and the
      separator follows it. */
  lemma JoinHead(head: string, sep: string, rest: string)
    ensures OccursAt(head, head + sep + rest, 0)
    ensures OccursAt(sep, head + sep + rest, |head|)
  {
    OccursInMiddle("", head, sep + rest);
    assert "" + head + (sep + rest) == head + sep + rest;
    OccursInMiddle(head, sep, rest);
  }

  /** An occurrence in the join of the tail is one in the whole join,
      shifted by the first part and one separator. */
  lemma JoinShift(head: string, sep: string, rest: string, x: string, o: int)
    requires OccursAt(x, rest, o)
    ensures OccursAt(x, head + sep + rest, |head| + |sep| + o)
  {
    OccursInSuffix(head + sep, x, rest, o);
  }

  /** The last part ends the joined string. */
  lemma {:induction false} JoinLength(parts: seq<string>, sep: string)
    requires |parts| >= 1
    ensures Offset(parts, sep, |parts| - 1) + |parts[|parts| - 1]| == |Join(parts, sep)|
    decreases |parts|
  {
    if |parts| > 1 {
      JoinLength(parts[1..], sep);
      OffsetShift(parts, sep, |parts| - 1);
      assert parts[1..][|parts| - 2] == parts[|parts| - 1];
    }
  }

  /** Offsets into the tail of `parts` are offsets into `parts` shifted by the
      first part and one separator. */
  lemma {:induction false} OffsetShift(parts: seq<string>, sep: string, i: nat)
    requires 1 <= i <= |parts|
    ensures Offset(parts, sep, i) == |parts[0]| + |sep| + Offset(parts[1..], sep, i - 1)
    decreases i
  {
    if i > 1 {
      OffsetShift(parts, sep, i - 1);
      assert parts[1..][i - 2] == parts[i - 1];
    }
  }

  /** Offsets never decrease, and a later part starts after an earlier one
      and the separator that follows it. */
  lemma {:induction false} OffsetMonotone(parts: seq<string>, sep: string, i: nat, j: nat)
    requires i <= j <= |parts|
    ensures Offset(parts, sep, i) <= Offset(parts, sep, j)
    ensures i < j ==> Offset(parts, sep, i) + |parts[i]| + |sep| <= Offset(parts, sep, j)
    decreases j - i
  {
    if i < j {
      OffsetMonotone(parts, sep, i + 1, j);
    }
  }

  /** An occurrence in `c` survives text on either side, shifted by the
      text before. */
  lemma Surround(pre: string, x: string, c: string, post: string, o: int)
    requires OccursAt(x, c, o)
    ensures OccursAt(x, pre + c + post, |pre| + o)
  {
    OccursInPrefix(x, c, o, post);
    OccursInSuffix(pre, x, c + post, o);
    assert pre + (c + post) == pre + c + post;
  }

  /** `JoinLayout` seen through text `pre` before and `post` after the join:
      the part. */
  lemma PartInJoin(pre: string, parts: seq<string>, sep: string, post: string, i: nat)
    requires i < |parts|
    ensures OccursAt(parts[i], pre + Join(parts, sep) + post, |pre| + Offset(parts, sep, i))
  {
    JoinLayout(parts, sep, i);
    SurroundJoin(pre, parts, sep, post, parts[i], Offset(parts, sep, i));
  }

  /** `JoinLayout` seen through text `pre` before and `post` after the join:
      the separator after the part. */
  lemma SepInJoin(pre: string, parts: seq<string>, sep: string, post: string, i: nat)
    requires i + 1 < |parts|
    ensures OccursAt(sep, pre + Join(parts, sep) + post, |pre| + Offset(parts, sep, i) + |parts[i]|)
  {
    JoinLayout(parts, sep, i);
    SurroundJoin(pre, parts, sep, post, sep, Offset(parts, sep, i) + |parts[i]|);
  }

  /** `Surround` for a joined string. */
  lemma SurroundJoin(pre: string, parts: seq<string>, sep: string, post: string, x: string, o: int)
    requires OccursAt(x, Join(parts, sep), o)
    ensures OccursAt(x, pre + Join(parts, sep) + post, |pre| + o)
  {
    Surround(pre, x, Join(parts, sep), post, o);
  }

  function DigitChar(d: nat): (c: char)
    requires d < 10
    ensures '0' <= c <= '9'
  {
    "0123456789"[d]
  }

  function DigitValue(c: char): (d: nat)
    requires '0' <= c <= '9'
    ensures d < 10
  {
    (c as int - '0' as int) as nat
  }

  /** Python's `str(n)` for `n >= 0`: its decimal digits, most significant
      first, without leading zeros. */
  function Decimal(n: nat): (r: string)
    ensures 1 <= |r|
    ensures forall k :: 0 <= k < |r| ==> '0' <= r[k] <= '9'
    ensures r[0] == '0' ==> n == 0
  {
    if n < 10 then [DigitChar(n)] else Decimal(n / 10) + [DigitChar(n % 10)]
  }

  /** Reads a string of decimal digits back as a number. */
  function ParseDecimal(s: string): nat
    requires forall k :: 0 <= k < |s| ==> '0' <= s[k] <= '9'
  {
    if |s| == 0 then 0
    else 10 * ParseDecimal(s[..|s| - 1]) + DigitValue(s[|s| - 1])
  }

  /** A digit character reads back as its value. */
  lemma DigitRoundTrip(d: nat)
    requires d < 10
    ensures DigitValue(DigitChar(d)) == d
  {
  }

  /** Appending a digit multiplies by ten and adds it. */
  lemma ParseSnoc(s: string, d: nat)
    requires forall k :: 0 <= k < |s| ==> '0' <= s[k] <= '9'
    requires d < 10
    ensures ParseDecimal(s + [DigitChar(d)]) == 10 * ParseDecimal(s) + d
  {
    var t := s + [DigitChar(d)];
    assert t[..|t| - 1] == s;
    DigitRoundTrip(d);
  }

  /** `Decimal` loses nothing: parsing its digits gives the number back. */
  lemma {:induction false} DecimalRoundTrip(n: nat)
    ensures ParseDecimal(Decimal(n)) == n
  {
    if n < 10 {
      ParseSnoc("", n);
      assert "" + [DigitChar(n)] == Decimal(n);
    } else {
      var q, d := n / 10, n % 10;
      DecimalRoundTrip(q);
      ParseSnoc(Decimal(q), d);
      assert n == 10 * q + d;
    }
  }

  /** Hence different numbers print differently. */
  lemma DecimalInjective(m: nat, n: nat)
    requires Decimal(m) == Decimal(n)
    ensures m == n
  {
    DecimalRoundTrip(m);
    DecimalRoundTrip(n);
  }
}

=== FILE: wrappers.dfy ===
/** Failure-carrying wrappers shared by every module of the model.
    `Option` stands for a Python value that may be `None`; `Result` stands for
    a call that either returns a value or raises an exception. */
module Wrappers {

  datatype Option<+T> = None | Some(value: T)

  datatype Result<+R, +E> = Success(value: R) | Failure(error: E)
}
